=== FILE: README.md ===
# PaperMind backend core, modelled in Dafny

PaperMind reads a research paper aloud one sentence at a time. The listener can
interrupt with a question and get an answer grounded in the paper. The answer draws on
a retrieval index over overlapping chunks of sentences, each tagged with the page it
came from. The backend also keeps a short live voice history, checks the text sent to
its quiz, explain and speech endpoints, and turns the paper into a two-voice podcast.

This project models that backend's core logic and proves properties of it:

- `wrappers.dfy` (module `Wrappers`): `Option` and `Result`.
- `text.dfy` (module `Text`): the parts of Python's `str` that the backend relies on.
  That is whitespace, `strip`, ASCII `lower`, slicing, `find`/`in`, `split`, `join`
  and `str(int)`.
- `rag.py` → `rag.dfy` (module `Rag`):
  - the snippet normalisation and the page lookup;
  - the sliding-window chunker, as a loop proved against a chunk-list function;
  - the `DocumentRAG` class, whose index state is updated in place.
- `agents.py` → `agents.dfy` (module `Agents`):
  - the `SessionState` class, whose reading position, status, question log and
    knowledge gaps change in place;
  - the reading agent and the start, interrupt and resume handlers;
  - the reply parsing and logging of the conversation agent;
  - the early exits of the knowledge-gap judge;
  - the session summary.
- `main.py` → `api.dfy` (module `Api`):
  - the sentence split of `pdf_to_sentences`;
  - the source excerpts;
  - the live history store and its two endpoints;
  - the input checks of the quiz, explain and speech endpoints;
  - the speech payload;
  - the session bookkeeping around the answer stream of `interrupt_stream`.
- `gemini_live.py` → `gemini_live.dfy` (module `GeminiLive`):
  - the conversation-history block;
  - the full system prompt;
  - the base64 padding.
- `podcast.py` → `podcast.dfy` (module `Podcast`):
  - the input cap and length modifier;
  - the in-place speaker normalisation;
  - the choice of speech service per line;
  - the podcast loop, which produces segments, a transcript and the requests made.

Language models, embedding services, speech services and the PDF decoder are never
called. What they return enters the model as a parameter:

- the orchestrator's decision;
- the tutor's reply;
- the judge's reply;
- the embedding outcome and the similarity ranking;
- the audio of each podcast line;
- the page texts of the PDF.

## Model

| member | source | states |
|---|---|---|
| Text.LStrip | main.py:79 | `lstrip` cuts only leading whitespace, keeps a suffix of the input and leaves no leading whitespace; it also drops the whitespace run after a split point |
| Text.RStrip | agents.py:204 | `rstrip` keeps a prefix of the input, cuts only trailing whitespace and leaves none |
| Text.Strip | main.py:604-606 | the result of `strip` neither starts nor ends with whitespace, is no longer than the input, and is empty exactly when the input was all whitespace (the `not text` checks) |
| Text.LStripAt | main.py:79 | when the first `c` characters are whitespace and the next is not, `lstrip` keeps exactly the text from `c` on |
| Text.RStripAt | agents.py:211 | when the characters from `c` on are whitespace and the one before is not, `rstrip` keeps exactly the first `c` |
| Text.LStripAppend | main.py:1070-1071 | appending a non-space character to a text appends it to the text's `lstrip` as well |
| Text.RStripKeeps | main.py:1070-1071 | `rstrip` leaves a text that ends in a non-space character unchanged |
| Text.StripLeading | main.py:543-548 | leading whitespace makes no difference to `strip` |
| Text.StripTrailing | main.py:543-548 | trailing whitespace makes no difference to `strip` |
| Text.StripKeepsLast | main.py:430-431 | `strip` keeps the last character of a string that ends in a non-space character (the "…" of a cut excerpt survives) |
| Text.LastN | agents.py:53 | `xs[-n:]` has `min(len, n)` elements and is the tail of `xs` |
| Text.IndexFrom | rag.py:37-45 | the substring search finds the first occurrence at or after the start, and reports none only when there is none |
| Text.ContainsPrefix | rag.py:37-46 | a page text that contains a probe contains every prefix of it |
| Text.MissingFirstChar | podcast.py:88-89 | a string without the first character of `p` does not contain `p` |
| Text.Before | agents.py:210-211 | `s.split(sep)[0]` is a prefix of `s`, ends where the first separator starts, and is all of `s` when there is none |
| Text.After | agents.py:211 | `s.split(sep)[1]` onwards: the text before the first separator, the separator and the rest rebuild `s` |
| Text.AfterIs | agents.py:211 | the rest starts right after the first occurrence of the separator |
| Text.IndexOfInside | main.py:543-548 | a text with no whitespace in it occurs in `s` exactly when it occurs in `s` without its surrounding whitespace, and its first occurrence moves by the cut |
| Text.JoinOccurs | agents.py:44 | each part occurs in the joined text |
| Text.JoinContains | agents.py:44 | each part is contained in the joined text |
| Text.SplitJoin | gemini_live.py:122 | splitting a join at its one-character separator gives the parts back when no part contains the separator |
| Text.NatToString | agents.py:345 | `str(n)` is a non-empty string of decimal digits |
| Text.ParseNatToString | agents.py:345 | reading the digits of `str(n)` gives `n` back |
| Rag.RemoveStars | rag.py:13 | no asterisk is left, no character is added, and a text without asterisks is unchanged |
| Rag.DropTrailingQuotes | rag.py:14 | only a trailing run of quotes is cut, and what is left does not end with a quote |
| Rag.RemoveStarsAppend | rag.py:13 | removing asterisks works piece by piece: the result for `a + b` is the result for `a` followed by that for `b` |
| Rag.QuotesStripped | rag.py:14 | the two shapes of the quote strip: without a final newline the text between the quote runs; with one, the same before the newline, which stays |
| Rag.StripQuotes | rag.py:14 | the leading and the trailing quote runs are cut and nothing else: the result is the text between them, and before a final newline the trailing run goes too, as `$` allows |
| Rag.DropDotRun | rag.py:15 | only a trailing run of periods is cut; the text is unchanged exactly when it does not end with two periods, and a cut text no longer ends with a period |
| Rag.DropEllipsis | rag.py:15 | the trailing period run is cut as by `DropDotRun`, before a final newline when there is one; the result never ends with two periods |
| Rag.CollapseSpace | rag.py:16 | the only whitespace left is ' ', every other character comes from the input, the result is never longer, and an all-whitespace text becomes one space |
| Rag.CollapseAround | rag.py:16 | a non-space character splits the collapse: the parts before and after it collapse on their own |
| Rag.DashesToSpaces | rag.py:17 | every dash becomes a space, every other character is kept, and the length is unchanged |
| Rag.NormalizeForMatch | rag.py:10-18 | the normalised text has no asterisk, no dash and no whitespace other than ' ', and never ends with two periods |
| Rag.PageClean | rag.py:35-36 | the cleaned page text has no dash and no whitespace other than ' ' |
| Rag.ProbeHits | rag.py:37-46 | a page whose cleaned text contains the whole cleaned snippet is hit by the probes |
| Rag.FirstHit | rag.py:37-46 | the first page at or after `i` that a probe hits, every page before it missed, and none only when every page misses |
| Rag.FirstPageHit | rag.py:34-47 | the number of the first page in map order whose text a probe of the normalised text hits, and none only when no page is hit |
| Rag.FindPageForText | rag.py:29-47 | blank text has no page; otherwise the result is the number of the first page in map order that a probe hits, and none only when no page is hit |
| Rag.FindPageWholeText | rag.py:29-47 | a page whose cleaned text contains the whole normalised snippet is always found |
| Rag.Range | rag.py:71 | `list(range(lo, hi))` has `hi - lo` elements counting up from `lo` |
| Rag.SliceStop | rag.py:63 | the stop of `sentences[i:end]` as Python reads it: `end` itself when it is at least 0, counted from the back otherwise, and never past the list |
| Rag.ChunkAt | rag.py:62-72 | a window of a positive size holds between one and `chunk_size` indices starting at its start; a size of zero or less gives no indices; the page is the lookup of the text |
| Rag.ChunksFrom | rag.py:61-72 | no window starts at or after the end, and at most one chunk per remaining sentence |
| Rag.ChunksFromCount | rag.py:61 | at most one chunk per window start: fewer than `(n - i) / step + 1` |
| Rag.Chunks | rag.py:50-73 | there are never more chunks than sentences |
| Rag.ChunksCount | rag.py:61 | fewer than `n / step + 1` chunks |
| Rag.ChunksFromAt | rag.py:61-72 | chunk `k` from a start is the window at the `k`-th start after it, and that start is inside the document |
| Rag.ChunksFromShift | rag.py:61-72 | chunk `k` from a start is the window built at the `k`-th start `j` after it, and `j` is a start inside the document whose window is non-empty |
| Rag.WindowStartIs | rag.py:61 | the `k`-th start of `range(i, n, step)` is `i + k * step` |
| Rag.ChunkAtWindow | rag.py:62-71 | for a positive size, the window at `i` is not empty, its stop is `min(i + chunk_size, n)`, and its chunk is the joined sentences, their page and their indices |
| Rag.BuildChunks | rag.py:50-73 | the chunker returns exactly the chunk list of the windows at `0, step, 2*step, ...`, with the page lookup applied to each; no sentences give no chunks |
| Rag.ChunkLoop | rag.py:61-72 | the loop over window starts builds exactly that chunk list for any page lookup |
| Rag.ChunkWindow | rag.py:61-72 | chunk `k` covers the sentence indices from `k*step` to `min(k*step + chunk_size, n)`, at least one and at most `chunk_size`; its text is those sentences joined by spaces and its page is the lookup of that text |
| Rag.ChunksCover | rag.py:50-73 | with an overlap of zero or more, every sentence index lies in some chunk |
| Rag.DocumentRag.constructor | rag.py:116-121 | a new index has no chunks, no embeddings, and the NVIDIA back end selected |
| Rag.DocumentRag.Index | rag.py:140-167 | the chunks are those of a 4-sentence window with overlap 1; an empty chunk list clears the embeddings; the back end in use and its vectors are recorded; a missing fallback model fails after the chunks and the flag were set |
| Rag.DocumentRag.Retrieve | rag.py:169-205 | an empty or unembedded index, and a query that cannot be embedded or has zero norm, give nothing; otherwise the text and page of the `top_k` best-ranked chunks, best first |
| Rag.DocumentRag.EmbeddingBackend | rag.py:207-209 | "nvidia" exactly while the NVIDIA embeddings are in use, "sentence-transformers" otherwise |
| Rag.EmptyDocumentRetrievesNothing | rag.py:146-149 | indexing a document with no sentences gives an index that retrieves nothing |
| Agents.SentenceAt | agents.py:35-38 | the current sentence exists exactly when the position is inside the document, and is the sentence there |
| Agents.SessionState.CurrentSentence | agents.py:35-38 | the current sentence exists exactly when the position is inside the document, and is the sentence there |
| Agents.PySlice | agents.py:44 | Python's clipped slice: the length, and each element is the one at the shifted index |
| Agents.ContextWindow | agents.py:40-44 | the sentences from `max(0, p - window)` to `min(n, p + window)`, consecutive, as many as that range holds, including the current one when there is one |
| Agents.SessionState.SurroundingContext | agents.py:40-44 | with a window of at least one, the joined context contains the current sentence |
| Agents.ReadStep | agents.py:275-306 | a missing or empty sentence ends reading; a flag decision holds the position and carries the sentence and flag; otherwise the sentence is read and the position moves on by exactly one |
| Agents.ReadStepKeepsPosition | agents.py:282-300 | one step never skips a sentence, never moves back, and never goes past the end |
| Agents.ReadStepsInOrder | agents.py:275-306 | with non-empty sentences and decisions that never flag, `k` steps read sentences `p..p+k` in order and end at `p+k` |
| Agents.ParseReply | agents.py:207-212 | without the marker, the reply is the answer unchanged; with it, both the answer and the image prompt are stripped |
| Agents.StripStripped | agents.py:211-212 | `strip` leaves a stripped string unchanged |
| Agents.MarkerFirstAfter | agents.py:209-210 | the first `VISUAL:` in `a + "VISUAL:" + b` follows `a` when `a` has none |
| Agents.ParseReplyRoundTrip | agents.py:207-212 | a reply written as `answer VISUAL: prompt`, with marker-free parts, parses back into those parts, stripped |
| Agents.ChunkTexts | agents.py:219 | one source text per retrieved chunk, in order |
| Agents.JudgeKnowledgeGap | agents.py:240-267 | no judgement before the second question; otherwise the stripped reply, with "NONE" read as no gap |
| Agents.AddGap | agents.py:224-225 | the list is unchanged, or a non-empty gap that was not in it is appended; a non-empty new gap is always appended |
| Agents.AddGapNoDuplicates | agents.py:224-225 | no gap is recorded twice |
| Agents.LogExchange | agents.py:214-225 | exactly one record is appended, holding the question, the answer, the position and the chunk texts; the gaps become those of `AddGap` with the judge's verdict on that record; gaps stay duplicate-free; the first question never adds a gap |
| Agents.ProgressRoundTrip | agents.py:345 | the progress text splits at its slash into the position and "<n> sentences", and the position reads back |
| Agents.Percent | agents.py:346 | the percentage before rounding is at least 0, at most 100 while the position is inside the document, and exactly `100 * position / n` for `n >= 1` (the `max(n, 1)` guard only matters for an empty document) |
| Agents.SummaryOf | agents.py:339-346 | the counts and lists are passed through; the progress text is `Progress` of the position and the count; the percentage is `Percent` of them, so at least 0 and at most 100 while the position is inside the document |
| Agents.SessionState.constructor | agents.py:27-33 | a new session starts at position 0, idle, with empty logs, and is valid |
| Agents.SessionState.Advance | agents.py:46-47 | the position moves on by one and nothing else changes |
| Agents.SessionState.ToDict | agents.py:49-56 | the view holds the last five questions only and everything else as it is |
| Agents.SessionState.ReadingAgent | agents.py:275-306 | the answer and the new position are those of `ReadStep`; status becomes reading only when a sentence is read; validity is preserved |
| Agents.SessionState.HandleStart | agents.py:314-317 | as the reading agent, and the session is reading afterwards whatever it answered |
| Agents.SessionState.HandleResume | agents.py:333-336 | as the reading agent, and the session stays resuming unless a sentence was read |
| Agents.SessionState.RecordExchange | agents.py:204-225 | the stripped reply is split at the marker, and the log becomes `LogExchange` of the old log at the current position |
| Agents.SessionState.LogAnswer | agents.py:214-225 | the question log and gaps become `LogExchange` of the old ones |
| Agents.SessionState.HandleInterrupt | agents.py:320-330 | the exchange is logged as in the conversation agent, the session ends up answering, and the position is not touched |
| Agents.SessionState.GetSessionSummary | agents.py:339-346 | the memory panel of the session: its question count, gaps, concepts and progress, with a percentage between 0 and 100 for a valid session |
| Api.SplitSentences | main.py:79 | at least one piece; no piece contains a sentence end followed by whitespace; every piece but the last is non-empty and ends a sentence |
| Api.SplitWhole | main.py:79 | a text without a sentence end before whitespace is one piece |
| Api.FirstBreakAfter | main.py:79 | in `a + " " + b`, with `a` a sentence free of split points, the first split point is the space after `a` |
| Api.Runs | main.py:79 | the whitespace runs the split drops, one fewer than the pieces, each non-empty and all whitespace |
| Api.SplitRebuilds | main.py:79 | the pieces with the dropped runs between them give back the whole text, so no character is lost or reordered |
| Api.SplitStep | main.py:79 | a sentence, any non-empty whitespace run and a rest not starting with whitespace: the sentence is the first piece, the run is the first dropped run, and the split goes on in the rest |
| Api.SplitRejoin | main.py:79 | sentences put together with any non-empty whitespace runs (newlines, tabs, several spaces) split back into exactly those sentences, with exactly those runs dropped, when each is free of split points, all but the last end a sentence, and none but the first starts with whitespace |
| Api.SplitJoinSentences | main.py:79 | sentences joined by single spaces split back into exactly those sentences when each is free of split points, all but the last end a sentence, and none but the first starts with whitespace |
| Api.StripAll | main.py:80 | every piece, stripped, in order |
| Api.LongOnes | main.py:80 | only texts longer than 20 characters are kept |
| Api.LongOnesAppend | main.py:80 | the filter keeps order: the long texts of `a + b` are those of `a` followed by those of `b` |
| Api.LongOnesSingle | main.py:80 | one text is kept exactly when it is longer than 20 characters |
| Api.LongOnesComplete | main.py:80 | no text longer than 20 characters is dropped |
| Api.KeepSentences | main.py:80 | every kept sentence is a stripped piece longer than 20 characters |
| Api.KeepSentencesAppend | main.py:80 | the kept sentences of `a + b` are those of `a` followed by those of `b`; one piece is kept, stripped, exactly when its stripped form is longer than 20 characters |
| Api.KeepSentencesComplete | main.py:80 | every piece whose stripped form is longer than 20 characters is kept, stripped |
| Api.ConcatPlacesPages | main.py:72-75 | each page's text sits in the full text right after the texts of the pages before it |
| Api.PdfToSentences | main.py:66-81 | the full text is the page texts in order, the pages are numbered from 1, and the sentences are the kept pieces of the split of the full text |
| Api.Excerpt | main.py:1070 | at most 151 characters; short text unchanged; longer text is its first 150 characters followed by "…" |
| Api.SourceExcerpt | main.py:565-567 | the stored excerpt is stripped and at most 151 characters; the stripped chunk text when that is short; when cut, the first 150 characters without leading whitespace, then "…" |
| Api.SourceOf | main.py:1069-1071 | a source keeps the chunk's page and a stripped excerpt of at most 151 characters, the stripped text itself when short |
| Api.SourcesOf | main.py:564-567 | one source per retrieved chunk among the first `limit`, in retrieval order, with the chunk's page |
| Api.BuildSources | main.py:1068-1071 | the loop builds exactly those sources |
| Api.DisplayTranscript | main.py:1062 | never empty: the transcript when there is one, "[voice]" otherwise |
| Api.UpdateLiveHistory | main.py:1062-1066 | the user turn, then the model turn when it said something, are appended; exactly the last `min(20, old + new)` entries are kept; the new turns are never cut |
| Api.LastUserMsg | main.py:1017 | the text of the newest user entry, or none when there is no user entry |
| Api.LastUserAfterUpdate | main.py:1017 | after a live turn, the next retrieval query is what the user just said (or "[voice]") |
| Api.LiveStore.constructor | main.py:59 | the store starts empty and valid |
| Api.StoreKeepsBound | main.py:1065 | storing a history of at most 20 turns keeps every stored history within 20 turns, the bound the live store keeps |
| Api.LiveStore.Talk | main.py:1008-1071 | the retrieval query is the last user message of the stored history; a reply of fewer than 100 bytes is an error, stores nothing and has no sources; otherwise only that session's history changes, to its updated history, the sources are those of the first three retrieved chunks, and every history stays within 20 entries |
| Api.LiveStore.Reset | main.py:1085-1089 | the session's history is removed whether or not it existed, and nothing else changes |
| Api.QuizText | main.py:604-608 | refused exactly when the stripped text is under 20 characters; over 3000 is cut to 3000 plus "..."; otherwise the stripped text |
| Api.ExplainText | main.py:758-768 | with no session and no document text the request is refused first; otherwise refused exactly when the stripped text is under 5 characters, and over 2000 is cut to 2000 plus "..." |
| Api.TtsText | main.py:1100-1104 | refused exactly when the stripped text is empty; otherwise the first 4000 characters of it, with no marker |
| Api.SpeechPayload | main.py:314-316 | the text is passed through; the voice is sent exactly when a non-empty voice id is given |
| Api.BackendName | main.py:569-571 | "none" exactly when no document is indexed, otherwise the pathway of the index |
| Api.ImagePrompt | main.py:576-577 | the reply's image prompt when it is non-empty, otherwise the first 200 characters of the answer |
| Api.StreamReply | main.py:541-548 | the streamed answer is stripped, and there is an image prompt exactly when the marker occurs |
| Api.StreamReplyRoundTrip | main.py:541-548 | a streamed `answer VISUAL: prompt` with marker-free parts splits back into those parts, stripped |
| Api.StreamReplyAgrees | main.py:541-548 | for every reply, splitting and then stripping (the stream) reads the same answer and image prompt as stripping and then splitting (the conversation agent) |
| Api.StripSlice | main.py:546-548 | `strip` keeps a middle slice of its input with only whitespace around it |
| Api.MarkerHasNoSpace | main.py:543 | the marker is not empty and has no whitespace in it |
| Api.AnswerAgrees | main.py:545-548 | the answer read by the stream equals the one read after stripping the whole reply |
| Api.HeadAgrees | main.py:545 | leading whitespace makes no difference to stripping, done once or twice |
| Api.VisualAgrees | main.py:546 | the image prompt read by the stream equals the one read after stripping the whole reply |
| Api.TailAgrees | main.py:546 | trailing whitespace makes no difference to the stripped text before the marker |
| Api.InterruptSession | main.py:483-587 | the session is interrupted first; a failed stream ends with its error and nothing logged; a finished one logs one question at the kept position, marks the session answering, and ends with the done event: the first five sources, the embedding pathway, the image prompt exactly when an image was asked for, the video request exactly when a video was, and the position |
| Api.FinishStream | main.py:541-587 | the answer is split and logged, the session is answering, and the done event carries the first five sources, the embedding pathway, the generator inputs that were asked for and the position |
| Api.InterruptStream | main.py:473-587 | an unknown session ends the stream with the not-found error; otherwise the sentences, position and explained concepts are untouched, and the error or done event and the log are those of `InterruptSession` |
| GeminiLive.HistoryLines | gemini_live.py:118-121 | one labelled line per entry, in order |
| GeminiLive.HistoryLine | gemini_live.py:119 | an entry's line is "User: " or "You: " by role, followed by its text |
| GeminiLive.HistoryBlock | gemini_live.py:115-122 | empty exactly for an empty history; otherwise the header and the lines of the last ten entries joined by newlines |
| GeminiLive.HistoryBlockLines | gemini_live.py:115-122 | when no text has a newline, the block splits back into one line per shown entry, at most ten, the newest last |
| GeminiLive.FullSystem | gemini_live.py:157 | the system prompt is kept as a prefix and is the whole prompt for an empty history |
| GeminiLive.PadBase64 | gemini_live.py:128 | the text stays a prefix, at most three "=" are added, none to a length that is already a multiple of 4, and the length ends a multiple of 4 |
| Podcast.TruncateInput | podcast.py:65-66 | text of at most 32000 characters is unchanged; longer text keeps its first 32000 and gets the truncation note |
| Podcast.LengthModifier | podcast.py:69 | a known length picks its modifier; any other length falls back to "medium" |
| Podcast.NormalizeSpeaker | podcast.py:88-89 | the speaker becomes "Guest" exactly when its lower-cased text contains "guest", and "Host (Jane)" otherwise, including when missing |
| Podcast.NormalizeSpeakerIdempotent | podcast.py:88-89 | normalising a normalised speaker changes nothing |
| Podcast.NormalizeSpeakers | podcast.py:87-89 | each item's speaker is rewritten in place to its normalised form and its text is kept |
| Podcast.SegmentRequest | podcast.py:157-164 | Runware when its key is set; otherwise MeloTTS on the first 500 characters, the host with EN-Default at 1.0 and others with EN-US at 0.9 |
| Podcast.VoiceFor | podcast.py:195 | the host's voice exactly for the host, the guest's for everyone else |
| Podcast.LineRequests | podcast.py:194-202 | the main app's function with the speaker's voice; otherwise the segment request, followed by a Runware retry exactly when it gave no audio and the Runware key is set (without the key the retry makes no request) |
| Podcast.AllRequests | podcast.py:189-202 | the requests of each line, in order |
| Podcast.FinalAudio | podcast.py:121-128 | the first audio when it is non-empty or the main app spoke; otherwise the retry's audio with the Runware key, and nothing without it |
| Podcast.HostAndGuestSoundDifferent | podcast.py:17-18 | host and guest never share a voice or a MeloTTS accent |
| Podcast.SpeakerLabel | podcast.py:190 | a bold label: "**Host**" for the host and the guest's name in bold for everyone else |
| Podcast.TranscriptLines | podcast.py:190-191 | one labelled entry per line, in order, whether or not the line got audio |
| Podcast.Segments | podcast.py:203-208 | only non-empty audio is kept, at most one segment per line |
| Podcast.SegmentsEmpty | podcast.py:210-213 | there are no segments exactly when no line got audio |
| Podcast.SegmentsKeepAudio | podcast.py:203-208 | every line with audio contributes its audio |
| Podcast.SegmentsFront | podcast.py:203-208 | the first line of `a + b` contributes its audio, when non-empty, ahead of the segments of the rest |
| Podcast.SegmentsAppend | podcast.py:203-208 | the segments of `a + b` are those of `a` followed by those of `b`, in line order |
| Podcast.SegmentsSingle | podcast.py:203-205 | one line gives one segment exactly when its final audio is non-empty |
| Podcast.SpeakLine | podcast.py:194-202 | one iteration makes that line's requests and yields its final audio |
| Podcast.SpeakAll | podcast.py:186-208 | the loop yields exactly the segments, the transcript entries and the requests of all lines |
| Podcast.GeneratePodcast | podcast.py:167-223 | fails with the no-audio error exactly when no line got audio; otherwise the segments and the transcript joined by blank lines |

## Left out

- Network calls are parameters, not computations. This covers NVIDIA, Claude and
  Nemotron (chat and embeddings), sentence-transformers, Runware, MeloTTS, Gemini Live
  and the image and video generators. Their results enter as inputs:
  - `Decision`;
  - the tutor and judge replies;
  - `IndexEmbedding`;
  - `QueryRanking`;
  - `LineAudio`;
  - `StreamOutcome`.
- The prompts sent to the models, including the orchestrator's prompt, are not
  modelled. The same goes for the JSON parsing of the orchestrator's decision, of the
  podcast script and of the quiz.
- Cosine similarity and `argsort` are floating-point numpy code. `Retrieve` takes the
  ranked chunk order as a parameter.
- PDF decoding with fitz: `PdfToSentences` starts from the text of each page.
- ffmpeg, WAV, pydub and MP3 encoding: a podcast `Episode` holds the segments before
  they are joined and encoded.
- The background thread, the queue and the SSE text deltas of the streaming endpoints
  are not modelled. Only the end of the stream (error or accumulated text) and the
  bookkeeping after it are.
- The FastAPI routing and the module-level `sessions`, `full_texts`, `page_texts` and
  `rag_indexes` dictionaries are not modelled. A session lookup enters as a
  `SessionState?` or as `hasSession`. `live_histories` is modelled as `LiveStore`.
- The image and video URLs of the done event are not modelled. The generators are
  network calls; the done event carries what they are given (the image prompt and the
  video request).
- An exception from the knowledge-gap judge or a language-model call is not modelled:
  the judge's reply is always a string. In `handle_interrupt` a judge exception would
  leave the record logged and the session interrupted. In `interrupt_stream` it would
  leave the record logged and the session answering, and the stream would end after the
  text without a done event.
- The throttle sleep between Runware calls is a timing matter and is left out.
- `prepare_conversation_context` is not part of this model. It builds the tutor's
  messages and does the retrieval; its retrieved chunks enter as a parameter.
- `live_respond_from_audio` always returns an empty user transcript. The transcript is
  a parameter of `Api.LiveStore.Talk`.
- `Text.LowerChar`: `str.lower` is modelled on ASCII letters only.
- Agents.SummaryOf and Agents.Percent: the percentage is the exact ratio. Python's `round()` to an integer
  is not modelled.
- Agents.SessionState.RecordExchange, Agents.SessionState.HandleInterrupt and
  Api.InterruptSession do not state `Valid()` preservation in their own `ensures`. It
  follows from the `NoDuplicates` clause of `Agents.LogExchange`.
- Rag.BuildChunks requires `chunk_size > overlap`. With a zero step Python's `range`
  raises, and with a negative step it yields nothing; neither case is modelled.

=== FILE: agents.dfy ===
/** agents.py: the reading-session state, the reading agent and the start / interrupt /
    resume handlers, the bookkeeping of the conversation agent, the early exits of the
    knowledge-gap judge and the session summary. What the language models say (the
    orchestrator's decision, the tutor's reply, the judge's label) is an input here. */
module Agents {
  import opened Wrappers
  import opened Text

  /** The five values of `SessionState.status`. */
  datatype Status = Idle | Reading | Interrupted | Answering | Resuming {
    function Name(): string {
      match this
      case Idle => "IDLE"
      case Reading => "READING"
      case Interrupted => "INTERRUPTED"
      case Answering => "ANSWERING"
      case Resuming => "RESUMING"
    }
  }

  /** One entry of `questions_asked`. */
  datatype QuestionRecord = QuestionRecord(question: string, answer: string, position: nat, sources: seq<string>)

  /** What `to_dict` returns. */
  datatype SessionView = SessionView(
    position: nat,
    status: string,
    questionsAsked: seq<QuestionRecord>,
    conceptsExplained: seq<string>,
    knowledgeGaps: seq<string>)

  /** The keys of the orchestrator's JSON answer that the reading agent looks at. */
  datatype Decision = Decision(action: Option<string>, concept: Option<string>)

  /** The three answers of `reading_agent`: `{"done": True}`, a proactive flag before the
      sentence, or the sentence to read. */
  datatype ReadResult = Done | Flagged(sentence: string, flagMessage: string) | Read(sentence: string)

  /** The answer text and the optional image prompt parsed from a tutor reply. */
  datatype Reply = Reply(answer: string, visualPrompt: Option<string>)

  /** What `get_session_summary` returns; `percent` is the exact ratio before rounding. */
  datatype Summary = Summary(
    questionsAsked: nat,
    knowledgeGaps: seq<string>,
    conceptsExplained: seq<string>,
    progress: string,
    percent: real)

  function Max(a: int, b: int): int {
    if a < b then b else a
  }

  function Min(a: int, b: int): int {
    if a < b then a else b
  }

  // ---------------------------------------------------------------- current sentence, context

  /** `sentences[position]` when the position is inside the list, `None` past its end. */
  function SentenceAt(sentences: seq<string>, position: nat): (r: Option<string>)
    ensures r.Some? <==> position < |sentences|
    ensures r.Some? ==> r.value == sentences[position]
  {
    if position < |sentences| then Some(sentences[position]) else None
  }

  /** Python's `xs[lo:hi]` for non-negative bounds: out-of-range bounds are clipped and a
      reversed range is empty. */
  function PySlice<T>(xs: seq<T>, lo: nat, hi: nat): (r: seq<T>)
    ensures |r| == if lo < Min(hi, |xs|) then Min(hi, |xs|) - lo else 0
    ensures forall k :: 0 <= k < |r| ==> r[k] == xs[lo + k]
  {
    if lo >= hi || lo >= |xs| then [] else xs[lo..Min(hi, |xs|)]
  }

  /** `sentences[max(0, p - w) : min(n, p + w)]`: at most `2 * w` sentences, consecutive
      from `max(0, p - w)`, as many as lie between the two bounds, and holding the current
      sentence when there is one and `w >= 1`. */
  function ContextWindow(sentences: seq<string>, position: nat, window: nat): (r: seq<string>)
    ensures |r| <= 2 * window
    ensures |r| == Max(0, Min(|sentences|, position + window) - Max(0, position - window))
    ensures forall k :: 0 <= k < |r| ==>
      Max(0, position - window) + k < |sentences| && r[k] == sentences[Max(0, position - window) + k]
    ensures position < |sentences| && window >= 1 ==>
      position - Max(0, position - window) < |r| && r[position - Max(0, position - window)] == sentences[position]
  {
    PySlice(sentences, Max(0, position - window), Min(|sentences|, position + window))
  }

  // ---------------------------------------------------------------- reading agent

  const FlagAction: string := "FLAG_CONCEPT"

  /** The proactive flag text for `concept`. */
  function FlagMessage(concept: string): string {
    "Heads up \U{2014} this next section mentions " + concept
    + ", which you've asked about before. Want a quick refresher first?"
  }

  /** `decision.get("concept", "")` */
  function FlagConcept(decision: Decision): string {
    match decision.concept
    case Some(c) => c
    case None => ""
  }

  /** One step of `reading_agent` as a value: the answer and the new position. A missing or
      empty sentence ends reading, a flag holds the position, and otherwise the sentence
      is read and the position moves on by one. */
  function ReadStep(sentences: seq<string>, position: nat, decision: Decision): (r: (ReadResult, nat))
    ensures r.0.Done? <==> position >= |sentences| || sentences[position] == ""
    ensures r.0.Read? <==> r.1 == position + 1
    ensures !r.0.Read? ==> r.1 == position
    ensures !r.0.Done? ==> position < |sentences| && r.0.sentence == sentences[position]
    ensures r.0.Flagged? <==> !r.0.Done? && decision.action == Some(FlagAction)
  {
    match SentenceAt(sentences, position)
    case None => (Done, position)
    case Some(s) =>
      if s == "" then (Done, position)
      else if decision.action == Some(FlagAction) then (Flagged(s, FlagMessage(FlagConcept(decision))), position)
      else (Read(s), position + 1)
  }

  /** The reading thread is never lost: a step never skips a sentence, never moves back,
      and never carries a position that was inside the document past its end. */
  lemma ReadStepKeepsPosition(sentences: seq<string>, position: nat, decision: Decision)
    requires position <= |sentences|
    ensures var (_, p) := ReadStep(sentences, position, decision);
      position <= p <= position + 1 && p <= |sentences|
  {
  }

  /** Reading a document of non-empty sentences with orchestrator decisions that never flag
      visits every sentence in order: `k` steps from the start read sentences `0..k`. */
  lemma {:induction false} ReadStepsInOrder(sentences: seq<string>, position: nat, k: nat)
    requires position + k <= |sentences|
    requires forall i :: 0 <= i < |sentences| ==> sentences[i] != ""
    ensures ReadRun(sentences, position, k) == (sentences[position..position + k], position + k)
    decreases k
  {
    if k > 0 {
      ReadStepsInOrder(sentences, position + 1, k - 1);
      assert sentences[position..position + k]
        == [sentences[position]] + sentences[position + 1..position + k];
    }
  }

  /** The sentences read by `k` steps whose decisions never flag, and the final position. */
  function ReadRun(sentences: seq<string>, position: nat, k: nat): (seq<string>, nat)
    decreases k
  {
    if k == 0 then ([], position)
    else
      match ReadStep(sentences, position, Decision(None, None))
      case (Read(s), p) =>
        var (rest, q) := ReadRun(sentences, p, k - 1);
        ([s] + rest, q)
      case (_, p) => ([], p)
  }

  // ---------------------------------------------------------------- conversation bookkeeping

  const VisualMarker: string := "VISUAL:"

  /** The `VISUAL:` split: with no marker the reply is the answer as it is; otherwise the
      answer is the stripped text before the first marker and the image prompt the
      stripped text between the first and the second. */
  function ParseReply(raw: string): (r: Reply)
    ensures !Contains(raw, VisualMarker) ==> r == Reply(raw, None)
    ensures Contains(raw, VisualMarker) ==>
      r.visualPrompt.Some? && IsStripped(r.answer) && IsStripped(r.visualPrompt.value)
  {
    if Contains(raw, VisualMarker) then
      Reply(Strip(Before(raw, VisualMarker)), Some(Strip(Before(After(raw, VisualMarker), VisualMarker))))
    else
      Reply(raw, None)
  }

  /** A stripped string is left alone by `strip`. */
  lemma StripStripped(s: string)
    requires IsStripped(s)
    ensures Strip(s) == s
  {
    assert s != [] ==> LStrip(s) == s;
    assert s != [] ==> RStrip(s) == s;
  }

  /** The last character of the marker is its only colon, so an occurrence of the marker
      that starts inside `a` lies wholly inside `a`. */
  lemma MarkerFirstAfter(a: string, b: string)
    requires !Contains(a, VisualMarker)
    ensures IndexOf(a + VisualMarker + b, VisualMarker) == Some(|a|)
  {
    var s := a + VisualMarker + b;
    assert OccursAt(s, VisualMarker, |a|) by {
      assert s[|a|..|a| + |VisualMarker|] == VisualMarker;
    }
    forall k | 0 <= k < |a|
      ensures !OccursAt(s, VisualMarker, k)
    {
      if k + |VisualMarker| <= |a| {
        assert s[k..k + |VisualMarker|] == a[k..k + |VisualMarker|];
        assert !OccursAt(a, VisualMarker, k);
      } else {
        var i := k + 6 - |a|;
        assert s[k + 6] == VisualMarker[i];
        assert forall m :: 0 <= m < 6 ==> VisualMarker[m] != ':';
        assert s[k..k + |VisualMarker|][6] == s[k + 6] != VisualMarker[6];
      }
    }
  }

  /** A reply written as the tutor is told to write it, `answer VISUAL: prompt`, with both
      parts free of the marker, parses back into those parts with their surrounding
      whitespace stripped (and so into exactly those parts when they are stripped). */
  lemma ParseReplyRoundTrip(answer: string, visual: string)
    requires !Contains(answer, VisualMarker) && !Contains(visual, VisualMarker)
    ensures ParseReply(answer + VisualMarker + visual) == Reply(Strip(answer), Some(Strip(visual)))
  {
    var s := answer + VisualMarker + visual;
    MarkerFirstAfter(answer, visual);
    assert Before(s, VisualMarker) == answer;
    assert s[|answer| + |VisualMarker|..] == visual;
  }

  /** `[t for t, _ in retrieved_chunks]` */
  function ChunkTexts(retrieved: seq<(string, Option<int>)>): (r: seq<string>)
    ensures |r| == |retrieved|
    ensures forall k :: 0 <= k < |r| ==> r[k] == retrieved[k].0
  {
    seq(|retrieved|, k requires 0 <= k < |retrieved| => retrieved[k].0)
  }

  // ---------------------------------------------------------------- knowledge gaps

  /** The early exits of `claude_judge_knowledge_gap`: no judgement before the second
      question; the judge's stripped reply otherwise, with "NONE" read as no gap. */
  function JudgeKnowledgeGap(questionCount: nat, judgeReply: string): (r: Option<string>)
    ensures questionCount < 2 ==> r == None
    ensures r.Some? ==> r.value == Strip(judgeReply) && r.value != "NONE"
    ensures questionCount >= 2 && Strip(judgeReply) != "NONE" ==> r.Some?
  {
    if questionCount < 2 then None
    else
      var result := Strip(judgeReply);
      if result == "NONE" then None else Some(result)
  }

  predicate NoDuplicates(xs: seq<string>) {
    forall i, j :: 0 <= i < j < |xs| ==> xs[i] != xs[j]
  }

  /** `if gap and gap not in knowledge_gaps: knowledge_gaps.append(gap)` */
  function AddGap(gaps: seq<string>, gap: Option<string>): (r: seq<string>)
    ensures gap.Some? && gap.value != "" ==> gap.value in r
    ensures r == gaps || (gap.Some? && gap.value != "" && gap.value !in gaps && r == gaps + [gap.value])
  {
    if gap.Some? && gap.value != "" && gap.value !in gaps then gaps + [gap.value] else gaps
  }

  /** Gaps are recorded at most once. */
  lemma AddGapNoDuplicates(gaps: seq<string>, gap: Option<string>)
    ensures NoDuplicates(gaps) ==> NoDuplicates(AddGap(gaps, gap))
  {
    var r := AddGap(gaps, gap);
    if NoDuplicates(gaps) && r != gaps {
      forall i, j | 0 <= i < j < |r|
        ensures r[i] != r[j]
      {
        if j == |gaps| {
          assert r[i] == gaps[i];
        }
      }
    }
  }

  /** The question history and the knowledge gaps after one answered question. */
  datatype Log = Log(questions: seq<QuestionRecord>, gaps: seq<string>)

  /** The log after an answered question: exactly one record is appended, holding the
      question, the answer, the reading position and the retrieved chunk texts; the judge
      sees the new question count, and what it names is added once, if at all. */
  function LogExchange(log: Log, position: nat, question: string, answer: string,
                       retrieved: seq<(string, Option<int>)>, judgeReply: string): (r: Log)
    ensures |r.questions| == |log.questions| + 1 && r.questions[..|log.questions|] == log.questions
    ensures r.questions[|log.questions|] == QuestionRecord(question, answer, position, ChunkTexts(retrieved))
    ensures NoDuplicates(log.gaps) ==> NoDuplicates(r.gaps)
    ensures |log.questions| == 0 ==> r.gaps == log.gaps
    ensures r.gaps == AddGap(log.gaps, JudgeKnowledgeGap(|log.questions| + 1, judgeReply))
  {
    var questions := log.questions + [QuestionRecord(question, answer, position, ChunkTexts(retrieved))];
    var gap := JudgeKnowledgeGap(|questions|, judgeReply);
    AddGapNoDuplicates(log.gaps, gap);
    Log(questions, AddGap(log.gaps, gap))
  }

  // ---------------------------------------------------------------- summary

  /** `f"{position}/{n} sentences"` */
  function Progress(position: nat, n: nat): string {
    NatToString(position) + "/" + NatToString(n) + " sentences"
  }

  /** The progress text splits at its one slash into the two numbers, and the first reads
      back as the position. */
  lemma ProgressRoundTrip(position: nat, n: nat)
    ensures var parts := SplitOn(Progress(position, n), '/');
      && parts == [NatToString(position), NatToString(n) + " sentences"]
      && ParseNat(parts[0]) == position
  {
    var a := NatToString(position);
    var b := NatToString(n) + " sentences";
    assert '/' !in a by {
      assert forall i :: 0 <= i < |a| ==> IsDigit(a[i]);
    }
    assert '/' !in b by {
      assert forall i :: 0 <= i < |NatToString(n)| ==> IsDigit(NatToString(n)[i]);
      assert forall i :: 0 <= i < |b| ==> b[i] != '/';
    }
    assert Progress(position, n) == Join("/", [a, b]);
    SplitJoin([a, b], '/');
    ParseNatToString(position);
  }

  /** `get_session_summary` on the values it reads. The ratio is taken over `max(n, 1)`, so
      an empty document does not divide by zero, and it stays within 0..100 while the
      position is inside the document. */
  function SummaryOf(questionCount: nat, gaps: seq<string>, concepts: seq<string>, position: nat, n: nat): (r: Summary)
    ensures r.questionsAsked == questionCount && r.knowledgeGaps == gaps && r.conceptsExplained == concepts
    ensures r.progress == Progress(position, n)
    ensures r.percent >= 0.0
    ensures position <= n ==> r.percent <= 100.0
    ensures r.percent == Percent(position, n)
  {
    Summary(questionCount, gaps, concepts, Progress(position, n), Percent(position, n))
  }

  /** `(position / max(n, 1)) * 100`, before rounding: the exact ratio of position to
      sentence count, in percent, for a non-empty document. */
  function Percent(position: nat, n: nat): (r: real)
    ensures r >= 0.0
    ensures position <= n ==> r <= 100.0
    ensures n >= 1 ==> r * (n as real) == (position as real) * 100.0
  {
    var d := Max(n, 1);
    PercentBound(position, d);
    (position as real / d as real) * 100.0
  }

  lemma PercentBound(p: nat, d: int)
    requires d >= 1
    ensures (p as real / d as real) * 100.0 >= 0.0
    ensures p <= d ==> (p as real / d as real) * 100.0 <= 100.0
    ensures (p as real / d as real) * 100.0 * (d as real) == (p as real) * 100.0
  {
    var q := p as real / d as real;
    assert q * (d as real) == p as real;
    assert q >= 0.0;
    if p <= d {
      assert q <= 1.0;
    }
  }

  // ---------------------------------------------------------------- SessionState

  class SessionState {
    var sentences: seq<string>
    var position: nat
    var status: Status
    var questionsAsked: seq<QuestionRecord>
    var conceptsExplained: seq<string>
    var knowledgeGaps: seq<string>

    /** The reading position stays within the document (one past the last sentence at
        the end) and no knowledge gap is recorded twice. */
    predicate Valid()
      reads this
    {
      position <= |sentences| && NoDuplicates(knowledgeGaps)
    }

    constructor (sentences: seq<string>)
      ensures this.sentences == sentences && position == 0 && status == Idle
      ensures questionsAsked == [] && conceptsExplained == [] && knowledgeGaps == []
      ensures Valid()
    {
      this.sentences := sentences;
      position := 0;
      status := Idle;
      questionsAsked := [];
      conceptsExplained := [];
      knowledgeGaps := [];
    }

    /** `current_sentence`: the sentence at the position, `None` once past the end. */
    function CurrentSentence(): (r: Option<string>)
      reads this
      ensures r.Some? <==> position < |sentences|
      ensures r.Some? ==> r.value == sentences[position]
    {
      SentenceAt(sentences, position)
    }

    /** `surrounding_context(window)`: the window joined with spaces, which holds the
        current sentence whenever there is one and the window is at least one wide. */
    function SurroundingContext(window: nat): (r: string)
      reads this
      ensures position < |sentences| && window >= 1 ==> Contains(r, sentences[position])
    {
      var w := ContextWindow(sentences, position, window);
      if position < |sentences| && window >= 1 then
        JoinContains(" ", w, position - Max(0, position - window));
        Join(" ", w)
      else
        Join(" ", w)
    }

    /** `advance`: one sentence on, nothing else touched. */
    method Advance()
      modifies this`position
      ensures position == old(position) + 1
    {
      position := position + 1;
    }

    /** `to_dict`: the last five questions only, everything else as it is. */
    function ToDict(): (v: SessionView)
      reads this
      ensures v.position == position && v.status == status.Name()
      ensures |v.questionsAsked| == Min(|questionsAsked|, 5)
      ensures v.questionsAsked == questionsAsked[|questionsAsked| - |v.questionsAsked|..]
      ensures v.conceptsExplained == conceptsExplained && v.knowledgeGaps == knowledgeGaps
    {
      SessionView(position, status.Name(), LastN(questionsAsked, 5), conceptsExplained, knowledgeGaps)
    }

    /** `reading_agent`, with the orchestrator's decision as input. */
    method ReadingAgent(decision: Decision) returns (r: ReadResult)
      modifies this`position, this`status
      ensures (r, position) == ReadStep(sentences, old(position), decision)
      ensures r.Read? ==> status == Reading
      ensures !r.Read? ==> status == old(status)
      ensures old(Valid()) ==> Valid()
    {
      var sentence := CurrentSentence();
      if sentence.None? || sentence.value == "" {
        return Done;
      }
      if decision.action == Some(FlagAction) {
        return Flagged(sentence.value, FlagMessage(FlagConcept(decision)));
      }
      Advance();
      status := Reading;
      r := Read(sentence.value);
    }

    /** `handle_start`: whatever the reading agent answers, the session is reading. */
    method HandleStart(decision: Decision) returns (r: ReadResult)
      modifies this`position, this`status
      ensures (r, position) == ReadStep(sentences, old(position), decision)
      ensures status == Reading
      ensures old(Valid()) ==> Valid()
    {
      status := Reading;
      r := ReadingAgent(decision);
    }

    /** `handle_resume`: the session is resuming until a sentence is actually read. */
    method HandleResume(decision: Decision) returns (r: ReadResult)
      modifies this`position, this`status
      ensures (r, position) == ReadStep(sentences, old(position), decision)
      ensures r.Read? ==> status == Reading
      ensures !r.Read? ==> status == Resuming
      ensures old(Valid()) ==> Valid()
    {
      status := Resuming;
      r := ReadingAgent(decision);
    }

    /** The bookkeeping of `conversation_agent` once the tutor has replied: the reply is
        stripped and split at the marker, and the answer is logged. */
    method RecordExchange(question: string, retrieved: seq<(string, Option<int>)>, tutorReply: string, judgeReply: string)
      returns (reply: Reply)
      modifies this`questionsAsked, this`knowledgeGaps
      ensures reply == ParseReply(Strip(tutorReply))
      ensures Log(questionsAsked, knowledgeGaps)
        == LogExchange(old(Log(questionsAsked, knowledgeGaps)), position, question, reply.answer, retrieved, judgeReply)
    {
      reply := ParseReply(Strip(tutorReply));
      LogAnswer(question, reply.answer, retrieved, judgeReply);
    }

    /** The logging that follows an answer: the question record, then the judged gap. */
    method LogAnswer(question: string, answer: string, retrieved: seq<(string, Option<int>)>, judgeReply: string)
      modifies this`questionsAsked, this`knowledgeGaps
      ensures Log(questionsAsked, knowledgeGaps)
        == LogExchange(old(Log(questionsAsked, knowledgeGaps)), position, question, answer, retrieved, judgeReply)
    {
      var log := LogExchange(Log(questionsAsked, knowledgeGaps), position, question, answer, retrieved, judgeReply);
      questionsAsked := log.questions;
      knowledgeGaps := log.gaps;
    }

    /** `handle_interrupt`: interrupted while the question is answered, answering after;
        the reading position is kept. */
    method HandleInterrupt(question: string, retrieved: seq<(string, Option<int>)>, tutorReply: string, judgeReply: string)
      returns (reply: Reply)
      modifies this`questionsAsked, this`knowledgeGaps, this`status
      ensures reply == ParseReply(Strip(tutorReply))
      ensures Log(questionsAsked, knowledgeGaps)
        == LogExchange(old(Log(questionsAsked, knowledgeGaps)), position, question, reply.answer, retrieved, judgeReply)
      ensures status == Answering
    {
      ghost var before := Log(questionsAsked, knowledgeGaps);
      status := Interrupted;
      assert Log(questionsAsked, knowledgeGaps) == before;
      reply := RecordExchange(question, retrieved, tutorReply, judgeReply);
      status := Answering;
    }

    /** `get_session_summary`: the counts and lists of the session, its progress text, and
        a percentage within 0..100 while the session is valid. */
    function GetSessionSummary(): (r: Summary)
      reads this
      ensures r.questionsAsked == |questionsAsked| && r.knowledgeGaps == knowledgeGaps
      ensures r.conceptsExplained == conceptsExplained
      ensures r.progress == Progress(position, |sentences|)
      ensures Valid() ==> 0.0 <= r.percent <= 100.0
    {
      SummaryOf(|questionsAsked|, knowledgeGaps, conceptsExplained, position, |sentences|)
    }
  }
}

=== FILE: api.dfy ===
/** main.py: the sentence split of `pdf_to_sentences`, the source excerpts, the live
    conversation history, the input checks of the quiz / explain / speech endpoints, the
    session bookkeeping of `interrupt_stream`, and the speech request of
    `text_to_speech`. */
module Api {
  import opened Wrappers
  import opened Text
  import Rag
  import opened Agents
  import opened GeminiLive

  // ---------------------------------------------------------------- pdf_to_sentences

  predicate IsTerminal(c: char) {
    c == '.' || c == '!' || c == '?'
  }

  /** `(?<=[.!?])\s+` can start matching at `i`: a sentence end right before whitespace. */
  predicate BreakAt(s: string, i: int) {
    1 <= i < |s| && IsTerminal(s[i - 1]) && IsSpace(s[i])
  }

  predicate NoBreak(s: string) {
    forall i :: 0 <= i < |s| ==> !BreakAt(s, i)
  }

  /** The first split point at or after `i`. */
  function FirstBreak(s: string, i: nat): (r: Option<nat>)
    decreases |s| - i
    ensures r.Some? ==> i <= r.value && BreakAt(s, r.value)
    ensures forall k :: i <= k && (r.None? || k < r.value) ==> !BreakAt(s, k)
  {
    if i >= |s| then None
    else if BreakAt(s, i) then Some(i)
    else FirstBreak(s, i + 1)
  }

  /** `re.split(r'(?<=[.!?])\s+', text)`: the text is cut at every whitespace run that
      follows a sentence end, and the run itself is dropped. No piece holds a sentence
      end followed by whitespace, and every piece but the last ends a sentence. */
  function SplitSentences(s: string): (r: seq<string>)
    decreases |s|
    ensures |r| >= 1
    ensures forall k :: 0 <= k < |r| ==> NoBreak(r[k])
    ensures forall k :: 0 <= k < |r| - 1 ==> r[k] != [] && IsTerminal(r[k][|r[k]| - 1])
  {
    match FirstBreak(s, 0)
    case None => [s]
    case Some(i) =>
      var head := s[..i];
      assert NoBreak(head) by {
        forall k | 0 <= k < |head|
          ensures !BreakAt(head, k)
        {
          assert !BreakAt(s, k);
        }
      }
      [head] + SplitSentences(LStrip(s[i..]))
  }

  /** A text with no sentence end before whitespace is one piece. */
  lemma SplitWhole(s: string)
    requires NoBreak(s)
    ensures SplitSentences(s) == [s]
  {
    assert FirstBreak(s, 0) == None;
  }

  /** Sentences joined by single spaces split back into exactly those sentences, when each
      is free of inner split points, every one but the last ends a sentence, and none but
      the first starts with whitespace (the split drops the whole whitespace run). */
  lemma {:induction false} SplitJoinSentences(ps: seq<string>)
    requires |ps| >= 1
    requires forall k :: 0 <= k < |ps| ==> NoBreak(ps[k])
    requires forall k :: 0 <= k < |ps| - 1 ==> ps[k] != [] && IsTerminal(ps[k][|ps[k]| - 1])
    requires forall k :: 1 <= k < |ps| ==> ps[k] == [] || !IsSpace(ps[k][0])
    ensures SplitSentences(Join(" ", ps)) == ps
  {
    if |ps| == 1 {
      SplitWhole(ps[0]);
    } else {
      var p0 := ps[0];
      var rest := Join(" ", ps[1..]);
      var s := p0 + " " + rest;
      assert Join(" ", ps) == s;
      FirstBreakAfter(p0, rest);
      assert s[..|p0|] == p0;
      var x := s[|p0|..];
      assert x == " " + rest;
      if |ps| == 2 {
        assert rest == ps[1];
      } else {
        assert rest == ps[1] + " " + Join(" ", ps[2..]);
      }
      assert rest == [] || rest[0] == ps[1][0];
      LStripAt(x, 1);
      assert x[1..] == rest;
      SplitJoinSentences(ps[1..]);
      assert ps == [p0] + ps[1..];
    }
  }

  /** In `a + " " + b` with `a` ending a sentence and free of split points, the first split
      point is the space after `a`. */
  lemma FirstBreakAfter(a: string, b: string)
    requires a != [] && IsTerminal(a[|a| - 1]) && NoBreak(a)
    ensures FirstBreak(a + " " + b, 0) == Some(|a|)
  {
    var s := a + " " + b;
    assert BreakAt(s, |a|);
    forall k | 0 <= k < |a|
      ensures !BreakAt(s, k)
    {
      if 1 <= k {
        assert !BreakAt(a, k);
      }
    }
  }

  /** The whitespace runs the split drops, in order: run `k` stood between piece `k` and
      piece `k + 1`. Each is non-empty and all whitespace. */
  function Runs(s: string): (r: seq<string>)
    decreases |s|
    ensures |r| == |SplitSentences(s)| - 1
    ensures forall k :: 0 <= k < |r| ==> r[k] != [] && AllSpace(r[k])
  {
    match FirstBreak(s, 0)
    case None => []
    case Some(i) =>
      var t := s[i..];
      var rest := LStrip(t);
      assert t[0] == s[i];
      [t[..|t| - |rest|]] + Runs(rest)
  }

  /** Pieces put back together with a run between each two. */
  function Rejoin(ps: seq<string>, ws: seq<string>): string
    requires |ps| == |ws| + 1
    decreases |ws|
  {
    if ws == [] then ps[0] else ps[0] + ws[0] + Rejoin(ps[1..], ws[1..])
  }

  /** Nothing of the text is lost: the pieces with the dropped runs between them give
      back the text. */
  lemma {:induction false} SplitRebuilds(s: string)
    decreases |s|
    ensures Rejoin(SplitSentences(s), Runs(s)) == s
  {
    match FirstBreak(s, 0)
    case None =>
    case Some(i) =>
      var t := s[i..];
      var rest := LStrip(t);
      var w := t[..|t| - |rest|];
      assert t == w + rest;
      SplitRebuilds(rest);
      assert s == s[..i] + t;
  }

  /** One step of the split: a sentence, any non-empty whitespace run, then a text that
      does not start with whitespace. The sentence is the first piece, the run is dropped,
      and the split goes on in the rest. */
  lemma SplitStep(p: string, w: string, rest: string)
    requires p != [] && IsTerminal(p[|p| - 1]) && NoBreak(p)
    requires w != [] && AllSpace(w)
    requires rest == [] || !IsSpace(rest[0])
    ensures SplitSentences(p + w + rest) == [p] + SplitSentences(rest)
    ensures Runs(p + w + rest) == [w] + Runs(rest)
  {
    var s := p + w + rest;
    FirstBreakOfStep(p, w, rest);
    SplitAt(s, |p|);
    StepParts(s, p, w, rest);
  }

  /** One unfolding of the split and of its runs at the first split point `i`. */
  lemma SplitAt(s: string, i: nat)
    requires FirstBreak(s, 0) == Some(i)
    ensures i <= |s|
    ensures SplitSentences(s) == [s[..i]] + SplitSentences(LStrip(s[i..]))
    ensures Runs(s) == [s[i..][..|s| - i - |LStrip(s[i..])|]] + Runs(LStrip(s[i..]))
  {
  }

  /** Where the cut of `SplitStep` falls: the sentence before it, the run stripped off
      after it, and the rest. */
  lemma StepParts(s: string, p: string, w: string, rest: string)
    requires s == p + w + rest
    requires AllSpace(w)
    requires rest == [] || !IsSpace(rest[0])
    ensures s[..|p|] == p
    ensures LStrip(s[|p|..]) == rest
    ensures s[|p|..][..|s| - |p| - |rest|] == w
  {
    var t := s[|p|..];
    assert t == w + rest;
    LStripAt(t, |w|);
    assert t[|w|..] == rest;
  }

  lemma FirstBreakOfStep(p: string, w: string, rest: string)
    requires p != [] && IsTerminal(p[|p| - 1]) && NoBreak(p)
    requires w != [] && AllSpace(w)
    ensures FirstBreak(p + w + rest, 0) == Some(|p|)
  {
    var s := p + w + rest;
    assert s[|p|] == w[0];
    assert BreakAt(s, |p|);
    forall k | 0 <= k < |p|
      ensures !BreakAt(s, k)
    {
      if 1 <= k {
        assert !BreakAt(p, k);
      }
    }
  }

  /** What `SplitRejoin` asks of its pieces and runs: each piece is free of inner split
      points, every piece but the last ends a sentence, no piece but the first starts with
      whitespace, and each run is non-empty whitespace. */
  predicate Rejoinable(ps: seq<string>, ws: seq<string>) {
    && |ps| == |ws| + 1
    && (forall k :: 0 <= k < |ps| ==> NoBreak(ps[k]))
    && (forall k :: 0 <= k < |ps| - 1 ==> ps[k] != [] && IsTerminal(ps[k][|ps[k]| - 1]))
    && (forall k :: 1 <= k < |ps| ==> ps[k] == [] || !IsSpace(ps[k][0]))
    && (forall k :: 0 <= k < |ws| ==> ws[k] != [] && AllSpace(ws[k]))
  }

  /** Sentences put together with any non-empty whitespace runs between them (newlines,
      tabs, several spaces) split back into exactly those sentences, and the runs are
      exactly the ones dropped. */
  lemma {:induction false} SplitRejoin(ps: seq<string>, ws: seq<string>)
    requires Rejoinable(ps, ws)
    decreases |ws|
    ensures SplitSentences(Rejoin(ps, ws)) == ps
    ensures Runs(Rejoin(ps, ws)) == ws
  {
    if ws == [] {
      SplitWhole(ps[0]);
    } else {
      var rest := RejoinableTail(ps, ws);
      SplitStep(ps[0], ws[0], rest);
      SplitRejoin(ps[1..], ws[1..]);
      assert ps == [ps[0]] + ps[1..];
      assert ws == [ws[0]] + ws[1..];
    }
  }

  /** The first piece and run of a rejoinable list meet `SplitStep`, and what follows them
      is rejoinable again. */
  lemma RejoinableTail(ps: seq<string>, ws: seq<string>) returns (rest: string)
    requires Rejoinable(ps, ws) && ws != []
    ensures rest == Rejoin(ps[1..], ws[1..])
    ensures Rejoin(ps, ws) == ps[0] + ws[0] + rest
    ensures ps[0] != [] && IsTerminal(ps[0][|ps[0]| - 1]) && NoBreak(ps[0])
    ensures ws[0] != [] && AllSpace(ws[0])
    ensures rest == [] || !IsSpace(rest[0])
    ensures Rejoinable(ps[1..], ws[1..])
  {
    rest := Rejoin(ps[1..], ws[1..]);
    if |ws| == 1 {
      assert rest == ps[1];
    } else {
      assert rest == ps[1] + ws[1] + Rejoin(ps[2..], ws[2..]);
    }
    assert rest == [] || rest[0] == ps[1][0];
  }

  /** Every piece, stripped. */
  function StripAll(pieces: seq<string>): (r: seq<string>)
    ensures |r| == |pieces|
    ensures forall k :: 0 <= k < |r| ==> r[k] == Strip(pieces[k])
  {
    seq(|pieces|, k requires 0 <= k < |pieces| => Strip(pieces[k]))
  }

  /** The texts longer than 20 characters, in order. */
  function LongOnes(texts: seq<string>): (r: seq<string>)
    ensures |r| <= |texts|
    ensures forall k :: 0 <= k < |r| ==> r[k] in texts && |r[k]| > 20
  {
    if texts == [] then []
    else
      var rest := LongOnes(texts[1..]);
      if |texts[0]| > 20 then [texts[0]] + rest else rest
  }

  /** The filter keeps order and works piece by piece: the long texts of a concatenation
      are the long texts of its first part followed by those of its second. */
  lemma {:induction false} LongOnesAppend(a: seq<string>, b: seq<string>)
    ensures LongOnes(a + b) == LongOnes(a) + LongOnes(b)
  {
    if a == [] {
      assert a + b == b;
    } else {
      var x := a + b;
      assert x[0] == a[0] && x[1..] == a[1..] + b;
      var h := if |a[0]| > 20 then [a[0]] else [];
      LongOnesAppend(a[1..], b);
      assert LongOnes(x) == h + LongOnes(a[1..] + b);
      assert LongOnes(a) == h + LongOnes(a[1..]);
      AppendAssoc(h, LongOnes(a[1..]), LongOnes(b));
    }
  }

  /** A single text is kept exactly when it is longer than 20 characters. */
  lemma LongOnesSingle(t: string)
    ensures LongOnes([t]) == if |t| > 20 then [t] else []
  {
    assert [t][1..] == [];
  }

  /** Nothing long enough is dropped. */
  lemma {:induction false} LongOnesComplete(texts: seq<string>, j: nat)
    requires j < |texts| && |texts[j]| > 20
    ensures texts[j] in LongOnes(texts)
  {
    if j > 0 {
      LongOnesComplete(texts[1..], j - 1);
      assert texts[1..][j - 1] == texts[j];
    }
  }

  /** `[s.strip() for s in pieces if len(s.strip()) > 20]`: stripped pieces only, each
      longer than 20 characters. */
  function KeepSentences(pieces: seq<string>): (r: seq<string>)
    ensures |r| <= |pieces|
    ensures forall k :: 0 <= k < |r| ==> IsStripped(r[k]) && |r[k]| > 20
    ensures forall k :: 0 <= k < |r| ==> r[k] in StripAll(pieces)
  {
    LongOnes(StripAll(pieces))
  }

  /** The kept sentences of a concatenation of piece lists are those of the first list
      followed by those of the second, and a single piece gives its stripped form exactly
      when that is longer than 20 characters: the comprehension keeps order. */
  lemma KeepSentencesAppend(a: seq<string>, b: seq<string>)
    ensures KeepSentences(a + b) == KeepSentences(a) + KeepSentences(b)
    ensures |a| == 1 ==> KeepSentences(a) == if |Strip(a[0])| > 20 then [Strip(a[0])] else []
  {
    StripAllAppend(a, b);
    LongOnesAppend(StripAll(a), StripAll(b));
    if |a| == 1 {
      StripAllSingle(a);
      LongOnesSingle(Strip(a[0]));
    }
  }

  /** Stripping works piece by piece. */
  lemma StripAllAppend(a: seq<string>, b: seq<string>)
    ensures StripAll(a + b) == StripAll(a) + StripAll(b)
  {
    var x, y := StripAll(a + b), StripAll(a) + StripAll(b);
    assert |x| == |y|;
    forall k | 0 <= k < |x|
      ensures x[k] == y[k]
    {
      if k < |a| {
        assert (a + b)[k] == a[k];
      } else {
        assert (a + b)[k] == b[k - |a|];
      }
    }
  }

  /** A single piece, stripped. */
  lemma StripAllSingle(a: seq<string>)
    requires |a| == 1
    ensures StripAll(a) == [Strip(a[0])]
  {
    assert StripAll(a)[0] == Strip(a[0]);
  }

  /** Every piece whose stripped form has more than 20 characters is kept, in stripped
      form. */
  lemma KeepSentencesComplete(pieces: seq<string>, j: nat)
    requires j < |pieces| && |Strip(pieces[j])| > 20
    ensures Strip(pieces[j]) in KeepSentences(pieces)
  {
    LongOnesComplete(StripAll(pieces), j);
  }

  /** `"".join(texts)` */
  function Concat(texts: seq<string>): string {
    if texts == [] then [] else Concat(texts[..|texts| - 1]) + texts[|texts| - 1]
  }

  /** Each page's text sits in the full text right after the text of the pages before it. */
  lemma {:induction false} ConcatPlacesPages(texts: seq<string>, k: nat)
    requires k < |texts|
    ensures var off := |Concat(texts[..k])|;
      off + |texts[k]| <= |Concat(texts)| && Concat(texts)[off..off + |texts[k]|] == texts[k]
    decreases |texts|
  {
    var n := |texts|;
    var init := texts[..n - 1];
    assert Concat(texts) == Concat(init) + texts[n - 1];
    if k == n - 1 {
      assert texts[..k] == init;
    } else {
      ConcatPlacesPages(init, k);
      assert init[..k] == texts[..k];
      assert init[k] == texts[k];
    }
  }

  /** `pdf_to_sentences` once the PDF decoder has produced the text of each page: the full
      text is the page texts in order, the pages are numbered from 1, and the sentences
      are the kept pieces of the split. */
  method PdfToSentences(pageTexts: seq<string>) returns (sentences: seq<string>, fullText: string, pages: seq<Rag.Page>)
    ensures fullText == Concat(pageTexts)
    ensures |pages| == |pageTexts|
    ensures forall k :: 0 <= k < |pages| ==> pages[k] == Rag.Page(k + 1, pageTexts[k])
    ensures sentences == KeepSentences(SplitSentences(fullText))
  {
    fullText := "";
    pages := [];
    var i := 0;
    while i < |pageTexts|
      invariant i <= |pageTexts|
      invariant fullText == Concat(pageTexts[..i])
      invariant |pages| == i
      invariant forall k :: 0 <= k < i ==> pages[k] == Rag.Page(k + 1, pageTexts[k])
    {
      pages := pages + [Rag.Page(i + 1, pageTexts[i])];
      assert pageTexts[..i + 1][..i] == pageTexts[..i];
      fullText := fullText + pageTexts[i];
      i := i + 1;
    }
    assert pageTexts[..i] == pageTexts;
    sentences := KeepSentences(SplitSentences(fullText));
  }

  // ---------------------------------------------------------------- sources

  const Ellipsis: char := '\U{2026}'
  const InterruptSourceLimit: nat := 5
  const LiveSourceLimit: nat := 3

  /** One entry of `sources_with_pages`. */
  datatype Source = Source(text: string, page: Option<int>)

  /** `(chunk_text[:150] + "…") if len(chunk_text) > 150 else chunk_text`: a short text as
      it is, a long one cut to its first 150 characters and marked with "…". */
  function Excerpt(chunkText: string): (r: string)
    ensures |r| <= 151
    ensures |chunkText| <= 150 ==> r == chunkText
    ensures |chunkText| > 150 ==> |r| == 151 && r[..150] == chunkText[..150] && r[150] == Ellipsis
  {
    if |chunkText| > 150 then chunkText[..150] + [Ellipsis] else chunkText
  }

  /** The excerpt, stripped: at most 151 characters, stripped, the stripped chunk text
      itself when that is short; a cut excerpt is its first 150 characters without their
      leading whitespace, followed by the ellipsis, which the strip cannot reach. */
  function SourceExcerpt(chunkText: string): (r: string)
    ensures |r| <= 151 && IsStripped(r)
    ensures |chunkText| <= 150 ==> r == Strip(chunkText)
    ensures |chunkText| > 150 ==> r == LStrip(chunkText[..150]) + [Ellipsis]
  {
    var excerpt := Excerpt(chunkText);
    if |chunkText| > 150 then
      assert !IsSpace(Ellipsis);
      assert excerpt == chunkText[..150] + [Ellipsis];
      LStripAppend(chunkText[..150], Ellipsis);
      RStripKeeps(LStrip(chunkText[..150]) + [Ellipsis]);
      Strip(excerpt)
    else
      Strip(excerpt)
  }

  /** One entry of `sources_with_pages` for a retrieved `(text, page)` pair: the page as
      retrieved and a stripped excerpt of at most 151 characters. */
  function SourceOf(chunk: (string, Option<int>)): (r: Source)
    ensures r.page == chunk.1
    ensures |r.text| <= 151 && IsStripped(r.text)
    ensures |chunk.0| <= 150 ==> r.text == Strip(chunk.0)
  {
    Source(SourceExcerpt(chunk.0), chunk.1)
  }

  /** `f` applied to each of the first `n` elements, in order. */
  function MapPrefix<A, B>(f: A -> B, xs: seq<A>, n: nat): (r: seq<B>)
    requires n <= |xs|
    ensures |r| == n
    ensures forall k :: 0 <= k < n ==> r[k] == f(xs[k])
  {
    if n == 0 then [] else MapPrefix(f, xs, n - 1) + [f(xs[n - 1])]
  }

  /** `sources_with_pages`: one source per retrieved chunk among the first `limit`, in
      retrieval order. */
  function SourcesOf(retrieved: seq<(string, Option<int>)>, limit: nat): (r: seq<Source>)
    ensures |r| == Min(limit, |retrieved|)
    ensures forall k :: 0 <= k < |r| ==> r[k] == SourceOf(retrieved[k])
  {
    MapPrefix(SourceOf, retrieved, Min(limit, |retrieved|))
  }

  /** The loop that turns the first `limit` retrieved chunks into sources. */
  method BuildSources(retrieved: seq<(string, Option<int>)>, limit: nat) returns (sources: seq<Source>)
    ensures sources == SourcesOf(retrieved, limit)
  {
    var n := Min(limit, |retrieved|);
    sources := [];
    var i := 0;
    while i < n
      invariant i <= n
      invariant sources == MapPrefix(SourceOf, retrieved, i)
    {
      sources := sources + [SourceOf(retrieved[i])];
      i := i + 1;
    }
  }

  // ---------------------------------------------------------------- live history

  const MaxLiveHistory: nat := 20

  /** `user_transcript or "[voice]"`: never empty, and the transcript itself when Gemini
      returned one. */
  function DisplayTranscript(transcript: string): (r: string)
    ensures r != ""
    ensures transcript != "" ==> r == transcript
    ensures transcript == "" ==> r == "[voice]"
  {
    if transcript == "" then "[voice]" else transcript
  }

  /** The history after one live turn: the user turn, the model turn when it said
      something, and only the last 20 entries kept. */
  function UpdateLiveHistory(history: seq<Turn>, transcript: string, response: string): (r: seq<Turn>)
    ensures 1 <= |r| <= MaxLiveHistory
    ensures var added := [Turn("user", DisplayTranscript(transcript))]
        + (if response != "" then [Turn("model", response)] else []);
      && |r| == Min(MaxLiveHistory, |history| + |added|)
      && |added| <= |r| <= |history + added|
      && r[|r| - |added|..] == added
      && r == (history + added)[|history + added| - |r|..]
  {
    var added := [Turn("user", DisplayTranscript(transcript))]
      + (if response != "" then [Turn("model", response)] else []);
    LastN(history + added, MaxLiveHistory)
  }

  /** `next((h["text"] for h in reversed(history) if h["role"] == "user"), None)` */
  function LastUserMsg(history: seq<Turn>): (r: Option<string>)
    ensures r.Some? ==> exists i :: (0 <= i < |history| && history[i] == Turn("user", r.value)
      && forall j :: i < j < |history| ==> history[j].role != "user")
    ensures r.None? ==> forall j :: 0 <= j < |history| ==> history[j].role != "user"
  {
    if history == [] then None
    else if history[|history| - 1].role == "user" then Some(history[|history| - 1].text)
    else
      var r := LastUserMsg(history[..|history| - 1]);
      assert forall j :: 0 <= j < |history| - 1 ==> history[..|history| - 1][j] == history[j];
      r
  }

  /** After a live turn the next turn's retrieval query is what the user just said. */
  lemma LastUserAfterUpdate(history: seq<Turn>, transcript: string, response: string)
    ensures LastUserMsg(UpdateLiveHistory(history, transcript, response)) == Some(DisplayTranscript(transcript))
  {
    var added := [Turn("user", DisplayTranscript(transcript))]
      + (if response != "" then [Turn("model", response)] else []);
    LastUserOfAdded(UpdateLiveHistory(history, transcript, response), added, DisplayTranscript(transcript), response);
  }

  /** A history that ends in the turns one exchange adds has that exchange's user text
      as its last user message. */
  lemma LastUserOfAdded(r: seq<Turn>, added: seq<Turn>, text: string, response: string)
    requires added == [Turn("user", text)] + (if response != "" then [Turn("model", response)] else [])
    requires |added| <= |r| && r[|r| - |added|..] == added
    ensures LastUserMsg(r) == Some(text)
  {
    if response == "" {
      assert r[|r| - 1] == added[0];
    } else {
      assert r[|r| - 1] == added[1];
      assert r[|r| - 2] == added[0];
      assert r[..|r| - 1][|r| - 2] == r[|r| - 2];
    }
  }

  /** The history stored for a session, empty when there is none. */
  function HistoryOf(histories: map<string, seq<Turn>>, sessionId: string): seq<Turn> {
    if sessionId in histories then histories[sessionId] else []
  }

  /** Every stored history is within the bound. */
  predicate WithinBound(histories: map<string, seq<Turn>>) {
    forall sid :: sid in histories ==> |histories[sid]| <= MaxLiveHistory
  }

  /** Storing a history within the bound keeps every stored history within it. */
  lemma StoreKeepsBound(histories: map<string, seq<Turn>>, sessionId: string, history: seq<Turn>)
    requires |history| <= MaxLiveHistory
    ensures WithinBound(histories) ==> WithinBound(histories[sessionId := history])
  {
  }

  /** The module-level `live_histories` dictionary and the two endpoints that change it. */
  class LiveStore {
    var histories: map<string, seq<Turn>>

    /** Every stored history is within the bound. */
    predicate Valid()
      reads this
    {
      WithinBound(histories)
    }

    constructor ()
      ensures histories == map[] && Valid()
    {
      histories := map[];
    }

    /** `live_talk` around the Gemini call: the retrieval query is the last user message
        of the stored history (the current transcript only comes back with the reply);
        a reply of fewer than 100 bytes of audio is an error and nothing is stored;
        otherwise the session's history gets the turn and the answer carries the sources
        of the first three retrieved chunks. `retrieved` is what the index returned for
        the query (nothing without an index or a query). */
    method Talk(sessionId: string, retrieved: seq<(string, Option<int>)>, wavLength: nat, transcript: string, response: string)
      returns (ok: bool, query: Option<string>, sources: seq<Source>)
      modifies this
      ensures query == LastUserMsg(HistoryOf(old(histories), sessionId))
      ensures ok <==> wavLength >= 100
      ensures !ok ==> histories == old(histories) && sources == []
      ensures ok ==>
        histories == old(histories)[sessionId := UpdateLiveHistory(HistoryOf(old(histories), sessionId), transcript, response)]
      ensures ok ==> sources == SourcesOf(retrieved, LiveSourceLimit)
      ensures old(Valid()) ==> Valid()
    {
      var history := HistoryOf(histories, sessionId);
      query := LastUserMsg(history);
      if wavLength < 100 {
        return false, query, [];
      }
      var updated := UpdateLiveHistory(history, transcript, response);
      StoreKeepsBound(histories, sessionId, updated);
      histories := histories[sessionId := updated];
      sources := BuildSources(retrieved, LiveSourceLimit);
      ok := true;
    }

    /** `live_reset`: the session's history is dropped, whether or not there was one. */
    method Reset(sessionId: string)
      modifies this
      ensures histories == old(histories) - {sessionId}
      ensures sessionId !in histories
      ensures old(Valid()) ==> Valid()
    {
      histories := histories - {sessionId};
    }
  }

  // ---------------------------------------------------------------- input checks

  /** A request text after its endpoint's checks: the text to use, or the error message. */
  datatype Checked = Accepted(text: string) | Rejected(error: string)

  const QuizTooShort: string := "Select more text to generate a quiz"
  const ExplainTooShort: string := "Select more text to explain"
  const NoDocument: string := "No document found. Upload a PDF first."
  const NoTtsText: string := "No text provided"

  /** The check of `quiz_selection`: under 20 characters after stripping is refused, over
      3000 is cut to 3000 and marked with "...". */
  function QuizText(selected: string): (r: Checked)
    ensures r.Rejected? <==> |Strip(selected)| < 20
    ensures r.Rejected? ==> r.error == QuizTooShort
    ensures r.Accepted? && |Strip(selected)| <= 3000 ==> r.text == Strip(selected)
    ensures r.Accepted? && |Strip(selected)| > 3000 ==>
      |r.text| == 3003 && r.text[..3000] == Strip(selected)[..3000] && r.text[3000..] == "..."
  {
    var text := Strip(selected);
    if text == [] || |text| < 20 then Rejected(QuizTooShort)
    else if |text| > 3000 then Accepted(text[..3000] + "...")
    else Accepted(text)
  }

  /** The checks of `explain_selection`: without a session and without a document text
      the request is refused first; then under 5 characters is refused and over 2000 is
      cut to 2000 and marked with "...". */
  function ExplainText(selected: string, hasSession: bool, fullText: string): (r: Checked)
    ensures !hasSession && fullText == "" ==> r == Rejected(NoDocument)
    ensures (hasSession || fullText != "") ==> (r.Rejected? <==> |Strip(selected)| < 5)
    ensures (hasSession || fullText != "") && r.Rejected? ==> r.error == ExplainTooShort
    ensures r.Accepted? && |Strip(selected)| <= 2000 ==> r.text == Strip(selected)
    ensures r.Accepted? && |Strip(selected)| > 2000 ==>
      |r.text| == 2003 && r.text[..2000] == Strip(selected)[..2000] && r.text[2000..] == "..."
  {
    if !hasSession && fullText == "" then Rejected(NoDocument)
    else
      var text := Strip(selected);
      if text == [] || |text| < 5 then Rejected(ExplainTooShort)
      else if |text| > 2000 then Accepted(text[..2000] + "...")
      else Accepted(text)
  }

  /** The check of `tts_endpoint`: empty after stripping is refused, and the text is cut
      to exactly 4000 characters, with no marker. */
  function TtsText(text: string): (r: Checked)
    ensures r.Rejected? <==> Strip(text) == []
    ensures r.Rejected? ==> r.error == NoTtsText
    ensures r.Accepted? ==> 1 <= |r.text| <= 4000 && r.text == Prefix(Strip(text), 4000)
  {
    var t := Strip(text);
    if t == [] then Rejected(NoTtsText)
    else if |t| > 4000 then Accepted(t[..4000])
    else Accepted(t)
  }

  // ---------------------------------------------------------------- text_to_speech

  /** The `speech` object of the speech request. */
  datatype Speech = Speech(text: string, voice: Option<string>)

  /** The voice key is sent only for a non-empty voice id. */
  function SpeechPayload(text: string, voiceId: Option<string>): (r: Speech)
    ensures r.text == text
    ensures r.voice.Some? <==> voiceId.Some? && voiceId.value != ""
    ensures r.voice.Some? ==> r.voice == voiceId
  {
    match voiceId
    case Some(v) => if v != "" then Speech(text, Some(v)) else Speech(text, None)
    case None => Speech(text, None)
  }

  // ---------------------------------------------------------------- interrupt_stream

  /** How the background stream ended: an exception, or the accumulated text. */
  datatype StreamOutcome = StreamFailed(message: string) | StreamFinished(accumulated: string)

  /** What the video generator is asked for: the answer as the explanation, the question
      as the selected text. */
  datatype VideoRequest = VideoRequest(explanation: string, selectedText: string)

  /** The events `interrupt_stream` ends with (the text deltas before them are left out).
      The done event carries the generator inputs: the image prompt when an image was
      requested and the video request when a video was; the generated URLs are not part
      of this model. */
  datatype StreamEnd =
    | NoSession
    | StreamError(message: string)
    | StreamDone(sources: seq<Source>, embeddingBackend: string, imagePrompt: Option<string>,
                 video: Option<VideoRequest>, resumePosition: nat)

  /** `rag.get_embedding_backend() if rag else "none"`: "none" exactly when no document is
      indexed, otherwise the pathway of the index. */
  function BackendName(rag: Rag.DocumentRag?): (r: string)
    reads rag
    ensures r == "none" <==> rag == null
    ensures rag != null ==> (r == "nvidia" <==> rag.useNvidia)
  {
    if rag == null then "none" else rag.EmbeddingBackend()
  }

  /** `visual_prompt or answer[:200]`: the image prompt of the reply when it has a
      non-empty one, otherwise the first 200 characters of the answer. */
  function ImagePrompt(reply: Reply): (r: string)
    ensures reply.visualPrompt.Some? && reply.visualPrompt.value != "" ==> r == reply.visualPrompt.value
    ensures reply.visualPrompt.None? || reply.visualPrompt.value == "" ==>
      |r| == Min(200, |reply.answer|) && r == reply.answer[..|r|]
  {
    if reply.visualPrompt.Some? && reply.visualPrompt.value != "" then reply.visualPrompt.value
    else Prefix(reply.answer, 200)
  }

  /** The split of the streamed answer: as in the conversation agent, but on the unstripped
      text, with the answer stripped afterwards. */
  function StreamReply(full: string): (r: Reply)
    ensures IsStripped(r.answer)
    ensures r.visualPrompt.Some? <==> Contains(full, VisualMarker)
  {
    var p := ParseReply(full);
    Reply(Strip(p.answer), p.visualPrompt)
  }

  /** The streamed reply splits back into the answer and the image prompt it was made of. */
  lemma StreamReplyRoundTrip(answer: string, visual: string)
    requires !Contains(answer, VisualMarker) && !Contains(visual, VisualMarker)
    ensures StreamReply(answer + VisualMarker + visual) == Reply(Strip(answer), Some(Strip(visual)))
  {
    ParseReplyRoundTrip(answer, visual);
    StripStripped(Strip(answer));
  }

  /** `strip` keeps a middle slice of its input and cuts only whitespace around it. */
  lemma StripSlice(s: string) returns (a: nat, b: nat)
    ensures a <= b <= |s| && Strip(s) == s[a..b]
    ensures forall k :: 0 <= k < a ==> IsSpace(s[k])
    ensures forall k :: b <= k < |s| ==> IsSpace(s[k])
  {
    var l := LStrip(s);
    a := |s| - |l|;
    var t := RStrip(l);
    b := a + |t|;
    assert Strip(s) == t;
    forall k | b <= k < |s|
      ensures IsSpace(s[k])
    {
      assert s[k] == l[k - a];
    }
  }

  /** The marker has no whitespace in it, so whitespace around a text cannot hide or
      create an occurrence. */
  lemma MarkerHasNoSpace()
    ensures VisualMarker != [] && forall k :: 0 <= k < |VisualMarker| ==> !IsSpace(VisualMarker[k])
  {
  }

  /** Whatever surrounds the reply, the streaming path and the conversation agent read the
      same answer and image prompt: the one splits and then strips the answer, the other
      strips the whole reply and then splits. */
  lemma StreamReplyAgrees(full: string)
    ensures StreamReply(full) == ParseReply(Strip(full))
  {
    var a, b := StripSlice(full);
    MarkerHasNoSpace();
    IndexOfInside(full, VisualMarker, a, b);
    if Contains(full, VisualMarker) {
      AnswerAgrees(full, Strip(full), a, b);
      VisualAgrees(full, Strip(full), a, b);
    }
  }

  /** The answer part of `StreamReplyAgrees`, for `t` the stripped reply. */
  lemma AnswerAgrees(full: string, t: string, a: nat, b: nat)
    requires a <= b <= |full| && t == full[a..b]
    requires forall k :: 0 <= k < a ==> IsSpace(full[k])
    requires Contains(full, VisualMarker) && Contains(t, VisualMarker)
    requires IndexOf(full, VisualMarker).value == a + IndexOf(t, VisualMarker).value
    ensures Strip(Strip(Before(full, VisualMarker))) == Strip(Before(t, VisualMarker))
  {
    var j := IndexOf(t, VisualMarker).value;
    assert OccursAt(t, VisualMarker, j);
    var i := IndexOf(full, VisualMarker).value;
    var head := Before(full, VisualMarker);
    forall k | 0 <= k < a
      ensures IsSpace(head[k])
    {
      assert head[k] == full[k];
    }
    var v := full[a..i];
    forall m | 0 <= m < j
      ensures t[m] == v[m]
    {
      assert t[m] == full[a..b][m];
    }
    assert Before(t, VisualMarker) == v;
    HeadAgrees(head, v, a);
  }

  /** Leading whitespace makes no difference to stripping, done once or twice. */
  lemma HeadAgrees(head: string, v: string, a: nat)
    requires a <= |head| && head[a..] == v
    requires forall k :: 0 <= k < a ==> IsSpace(head[k])
    ensures Strip(Strip(head)) == Strip(v)
  {
    StripStripped(Strip(head));
    StripLeading(head, a);
  }

  /** The image-prompt part of `StreamReplyAgrees`, for `t` the stripped reply. */
  lemma VisualAgrees(full: string, t: string, a: nat, b: nat)
    requires a <= b <= |full| && t == full[a..b]
    requires forall k :: b <= k < |full| ==> IsSpace(full[k])
    requires Contains(full, VisualMarker) && Contains(t, VisualMarker)
    requires IndexOf(full, VisualMarker).value == a + IndexOf(t, VisualMarker).value
    ensures Strip(Before(After(full, VisualMarker), VisualMarker))
      == Strip(Before(After(t, VisualMarker), VisualMarker))
  {
    var m := |VisualMarker|;
    var i := IndexOf(full, VisualMarker).value;
    AfterIs(full, VisualMarker);
    AfterIs(t, VisualMarker);
    AfterWithin(full, a, b, i + m);
    TailAgrees(full[i + m..], b - (i + m));
  }

  /** What follows position `start` inside the middle slice `s[a..b]` is the beginning of
      what follows it in `s`, and the rest of `s` after that is whitespace. */
  lemma AfterWithin(s: string, a: nat, b: nat, start: nat)
    requires a <= start <= b <= |s|
    requires forall k :: b <= k < |s| ==> IsSpace(s[k])
    ensures s[a..b][start - a..] == s[start..][..b - start]
    ensures forall k :: b - start <= k < |s| - start ==> IsSpace(s[start..][k])
  {
    forall k | b - start <= k < |s| - start
      ensures IsSpace(s[start..][k])
    {
      assert s[start..][k] == s[start + k];
    }
  }

  /** Trailing whitespace makes no difference to the text before the marker, once
      stripped: the marker has no whitespace, so the whitespace cannot hold one. */
  lemma TailAgrees(whole: string, c: nat)
    requires c <= |whole|
    requires forall k :: c <= k < |whole| ==> IsSpace(whole[k])
    ensures Strip(Before(whole[..c], VisualMarker)) == Strip(Before(whole, VisualMarker))
  {
    var part := whole[..c];
    MarkerHasNoSpace();
    IndexOfInside(whole, VisualMarker, 0, c);
    assert whole[0..c] == part;
    if Contains(part, VisualMarker) {
      var j := IndexOf(part, VisualMarker).value;
      assert OccursAt(part, VisualMarker, j);
      assert part[..j] == whole[..j];
    } else {
      StripTrailing(whole, c);
    }
  }

  /** `interrupt_stream` around the stream, for a session that exists: the session is
      marked interrupted before the answer is generated; a failed stream leaves it so with
      nothing recorded and ends with the error; a finished one logs exactly one question at
      the kept position, marks it answering and ends with the done event. */
  method InterruptSession(state: SessionState, rag: Rag.DocumentRag?, question: string, responseTypes: seq<string>,
                          retrieved: seq<(string, Option<int>)>, outcome: StreamOutcome, judgeReply: string)
    returns (r: StreamEnd)
    modifies state`status, state`questionsAsked, state`knowledgeGaps
    ensures outcome.StreamFailed? ==>
      && r == StreamError(outcome.message)
      && state.status == Interrupted
      && state.questionsAsked == old(state.questionsAsked)
      && state.knowledgeGaps == old(state.knowledgeGaps)
    ensures outcome.StreamFinished? ==>
      var reply := StreamReply(outcome.accumulated);
      && state.status == Answering
      && Log(state.questionsAsked, state.knowledgeGaps)
        == LogExchange(old(Log(state.questionsAsked, state.knowledgeGaps)), state.position,
                       question, reply.answer, retrieved, judgeReply)
      && r.StreamDone?
      && r.sources == SourcesOf(retrieved, InterruptSourceLimit)
      && r.embeddingBackend == BackendName(rag)
      && (r.imagePrompt.Some? <==> "image" in responseTypes)
      && (r.imagePrompt.Some? ==> r.imagePrompt.value == ImagePrompt(reply))
      && (r.video.Some? <==> "video" in responseTypes)
      && (r.video.Some? ==> r.video.value == VideoRequest(reply.answer, question))
      && r.resumePosition == state.position
  {
    ghost var before := Log(state.questionsAsked, state.knowledgeGaps);
    state.status := Interrupted;
    assert Log(state.questionsAsked, state.knowledgeGaps) == before;
    match outcome
    case StreamFailed(message) =>
      r := StreamError(message);
    case StreamFinished(accumulated) =>
      r := FinishStream(state, rag, question, responseTypes, retrieved, accumulated, judgeReply);
  }

  /** The end of a stream that finished: the answer is split and logged, the session is
      answering, and the done event carries the sources of the first five chunks, the
      embedding pathway, the generator inputs that were asked for and the kept reading
      position. */
  method FinishStream(state: SessionState, rag: Rag.DocumentRag?, question: string, responseTypes: seq<string>,
                      retrieved: seq<(string, Option<int>)>, accumulated: string, judgeReply: string)
    returns (r: StreamEnd)
    modifies state`status, state`questionsAsked, state`knowledgeGaps
    ensures var reply := StreamReply(accumulated);
      && state.status == Answering
      && Log(state.questionsAsked, state.knowledgeGaps)
        == LogExchange(old(Log(state.questionsAsked, state.knowledgeGaps)), state.position,
                       question, reply.answer, retrieved, judgeReply)
      && r.StreamDone?
      && r.sources == SourcesOf(retrieved, InterruptSourceLimit)
      && r.embeddingBackend == BackendName(rag)
      && (r.imagePrompt.Some? <==> "image" in responseTypes)
      && (r.imagePrompt.Some? ==> r.imagePrompt.value == ImagePrompt(reply))
      && (r.video.Some? <==> "video" in responseTypes)
      && (r.video.Some? ==> r.video.value == VideoRequest(reply.answer, question))
      && r.resumePosition == state.position
  {
    var reply := StreamReply(accumulated);
    state.LogAnswer(question, reply.answer, retrieved, judgeReply);
    state.status := Answering;
    var sources := BuildSources(retrieved, InterruptSourceLimit);
    var backend := BackendName(rag);
    var imagePrompt := None;
    if "image" in responseTypes {
      imagePrompt := Some(ImagePrompt(reply));
    }
    var video := None;
    if "video" in responseTypes {
      video := Some(VideoRequest(reply.answer, question));
    }
    r := StreamDone(sources, backend, imagePrompt, video, state.position);
  }

  /** `interrupt_stream`: an unknown session id ends the stream at once with the
      "No session found. Upload a PDF first." error; otherwise the session is handled
      as above and its sentences, reading position and explained concepts are left as
      they were. */
  method InterruptStream(state: SessionState?, rag: Rag.DocumentRag?, question: string, responseTypes: seq<string>,
                         retrieved: seq<(string, Option<int>)>, outcome: StreamOutcome, judgeReply: string)
    returns (r: StreamEnd)
    modifies state
    ensures state == null <==> r == NoSession
    ensures state != null ==> state.position == old(state.position) && state.sentences == old(state.sentences)
    ensures state != null ==> state.conceptsExplained == old(state.conceptsExplained)
    ensures state != null && outcome.StreamFailed? ==>
      && r == StreamError(outcome.message)
      && state.status == Interrupted
      && state.questionsAsked == old(state.questionsAsked)
      && state.knowledgeGaps == old(state.knowledgeGaps)
    ensures state != null && outcome.StreamFinished? ==>
      var reply := StreamReply(outcome.accumulated);
      && state.status == Answering
      && Log(state.questionsAsked, state.knowledgeGaps)
        == LogExchange(old(Log(state.questionsAsked, state.knowledgeGaps)), state.position,
                       question, reply.answer, retrieved, judgeReply)
      && r.StreamDone?
      && r.sources == SourcesOf(retrieved, InterruptSourceLimit)
      && r.embeddingBackend == BackendName(rag)
      && (r.imagePrompt.Some? <==> "image" in responseTypes)
      && (r.imagePrompt.Some? ==> r.imagePrompt.value == ImagePrompt(reply))
      && (r.video.Some? <==> "video" in responseTypes)
      && (r.video.Some? ==> r.video.value == VideoRequest(reply.answer, question))
      && r.resumePosition == state.position
  {
    if state == null {
      return NoSession;
    }
    r := InterruptSession(state, rag, question, responseTypes, retrieved, outcome, judgeReply);
  }
}

=== FILE: gemini_live.dfy ===
/** gemini_live.py: the conversation-history block appended to the system prompt, the
    composition of the full system prompt, and the base64 padding of `_write_pcm`. */
module GeminiLive {
  import opened Text

  /** One entry of a live conversation history, `{"role": ..., "text": ...}`. */
  datatype Turn = Turn(role: string, text: string)

  const HistoryHeader: string := "\n\nCONVERSATION SO FAR:\n"
  const HistoryShown: nat := 10

  /** `f"{'User' if h['role'] == 'user' else 'You'}: {h['text']}"`: the entry's text behind
      a label that says who spoke, "User" for the student and "You" for every other role. */
  function HistoryLine(t: Turn): (r: string)
    ensures t.role == "user" ==> |r| == 6 + |t.text| && r[..6] == "User: "
    ensures t.role != "user" ==> |r| == 5 + |t.text| && r[..5] == "You: "
    ensures r[|r| - |t.text|..] == t.text
  {
    (if t.role == "user" then "User" else "You") + ": " + t.text
  }

  /** The lines of the shown entries, one per entry, in order. */
  function HistoryLines(history: seq<Turn>): (r: seq<string>)
    ensures |r| == |history|
    ensures forall k :: 0 <= k < |r| ==> r[k] == HistoryLine(history[k])
  {
    seq(|history|, k requires 0 <= k < |history| => HistoryLine(history[k]))
  }

  /** `_history_block`: nothing for an empty history; otherwise the header followed by the
      lines of the last ten entries joined by newlines. */
  function HistoryBlock(history: seq<Turn>): (r: string)
    ensures history == [] <==> r == ""
    ensures history != [] ==>
      |HistoryHeader| <= |r| && r[..|HistoryHeader|] == HistoryHeader
      && r[|HistoryHeader|..] == Join("\n", HistoryLines(LastN(history, HistoryShown)))
  {
    if history == [] then ""
    else HistoryHeader + Join("\n", HistoryLines(LastN(history, HistoryShown)))
  }

  /** When no entry's text holds a newline, the block reads back line by line: one line per
      shown entry, at most ten, the newest last, each labelled by its role. */
  lemma HistoryBlockLines(history: seq<Turn>)
    requires history != []
    requires forall k :: 0 <= k < |history| ==> '\n' !in history[k].text
    ensures var lines := SplitOn(HistoryBlock(history)[|HistoryHeader|..], '\n');
      && |lines| == (if |history| <= HistoryShown then |history| else HistoryShown)
      && lines[|lines| - 1] == HistoryLine(history[|history| - 1])
      && forall k :: 0 <= k < |lines| ==>
        lines[k] == HistoryLine(history[|history| - |lines| + k])
  {
    var shown := LastN(history, HistoryShown);
    var lines := HistoryLines(shown);
    forall k | 0 <= k < |lines|
      ensures '\n' !in lines[k]
    {
      var t := shown[k];
      assert t == history[|history| - |shown| + k];
      var tag := if t.role == "user" then "User" else "You";
      assert '\n' !in tag + ": ";
      assert lines[k] == (tag + ": ") + t.text;
    }
    SplitJoin(lines, '\n');
  }

  /** `system_prompt + _history_block(history)`: the prompt is kept as a prefix and is
      the whole result for an empty history. */
  function FullSystem(systemPrompt: string, history: seq<Turn>): (r: string)
    ensures |systemPrompt| <= |r| && r[..|systemPrompt|] == systemPrompt
    ensures history == [] ==> r == systemPrompt
  {
    systemPrompt + HistoryBlock(history)
  }

  /** `c * n` */
  function Repeat(c: char, n: nat): (r: string)
    ensures |r| == n && forall i :: 0 <= i < n ==> r[i] == c
  {
    if n == 0 then [] else Repeat(c, n - 1) + [c]
  }

  /** `raw + '=' * (-len(raw) % 4)`. For the positive divisor 4, Python's floored `%` and
      Dafny's Euclidean `%` agree. The padded text keeps `raw` as a prefix, adds at most
      three '=', adds none when the length is already a multiple of 4, and ends at a
      multiple of 4. */
  function PadBase64(raw: string): (r: string)
    ensures |r| % 4 == 0
    ensures |raw| <= |r| <= |raw| + 3 && r[..|raw|] == raw
    ensures forall i :: |raw| <= i < |r| ==> r[i] == '='
    ensures |raw| % 4 == 0 ==> r == raw
  {
    raw + Repeat('=', (-|raw|) % 4)
  }
}

=== FILE: podcast.dfy ===
/** podcast.py: the input truncation and length modifier of `generate_script`, the
    speaker normalisation of the parsed script, the text-to-speech choice of
    `_segment_to_audio`, and the transcript / segment loop of `generate_podcast_mp3`.
    The script itself and every piece of audio come from outside and are inputs here. */
module Podcast {
  import opened Wrappers
  import opened Text

  type Bytes = seq<bv8>

  const VoiceHost: string := "21m00Tcm4TlvDq8ikWAM"
  const VoiceGuest: string := "pNInz6obpgDQGcFmaJgB"
  const HostSpeaker: string := "Host (Jane)"
  const GuestSpeaker: string := "Guest"

  // ---------------------------------------------------------------- generate_script

  const PodcastMaxInput: nat := 32000
  const TruncationNote: string := "\n\n[Truncated for podcast...]"

  /** The input cap of `generate_script`: text of at most 32000 characters goes unchanged;
      longer text keeps its first 32000 characters and gets the truncation note. */
  function TruncateInput(text: string): (r: string)
    ensures |r| <= PodcastMaxInput + |TruncationNote|
    ensures |text| <= PodcastMaxInput ==> r == text
    ensures |text| > PodcastMaxInput ==>
      && |r| == PodcastMaxInput + |TruncationNote|
      && r[..PodcastMaxInput] == text[..PodcastMaxInput]
      && r[PodcastMaxInput..] == TruncationNote
  {
    if |text| > PodcastMaxInput then text[..PodcastMaxInput] + TruncationNote else text
  }

  const LengthModifiers: map<string, string> := map[
    "short" := "Keep it brief, 1\U{2013}2 minutes total (about 8\U{2013}12 dialogue lines).",
    "medium" := "Aim for 3\U{2013}5 minutes (about 18\U{2013}25 dialogue lines)."
  ]

  /** `LENGTH_MODIFIERS.get(length, LENGTH_MODIFIERS["medium"])`: a known length picks its
      modifier and any other falls back to the medium one. */
  function LengthModifier(length: string): (r: string)
    ensures length in LengthModifiers ==> r == LengthModifiers[length]
    ensures length !in LengthModifiers ==> r == LengthModifiers["medium"]
    ensures r in LengthModifiers.Values
  {
    if length in LengthModifiers then LengthModifiers[length] else LengthModifiers["medium"]
  }

  // ---------------------------------------------------------------- speaker normalisation

  /** A dialogue entry as parsed from the model's JSON, before normalisation: the speaker
      may be missing or null (`None`). */
  datatype RawItem = RawItem(speaker: Option<string>, text: string)

  /** `"Guest" if "guest" in (speaker or "").lower() else "Host (Jane)"` */
  function NormalizeSpeaker(speaker: Option<string>): (r: string)
    ensures r == GuestSpeaker || r == HostSpeaker
    ensures r == GuestSpeaker <==> speaker.Some? && Contains(Lower(speaker.value), "guest")
  {
    var sp := match speaker case Some(s) => Lower(s) case None => "";
    if Contains(sp, "guest") then GuestSpeaker
    else
      MissingFirstChar([], "guest");
      HostSpeaker
  }

  /** Normalising a normalised speaker changes nothing. */
  lemma NormalizeSpeakerIdempotent(speaker: Option<string>)
    ensures NormalizeSpeaker(Some(NormalizeSpeaker(speaker))) == NormalizeSpeaker(speaker)
  {
    assert Lower(GuestSpeaker) == "guest";
    assert OccursAt(Lower(GuestSpeaker), "guest", 0);
    ContainsAt(Lower(GuestSpeaker), "guest", 0);
    assert Lower(HostSpeaker) == "host (jane)";
    assert 'g' !in Lower(HostSpeaker);
    MissingFirstChar(Lower(HostSpeaker), "guest");
  }

  /** The loop over `data["dialogue"]` that rewrites each speaker in place. */
  method NormalizeSpeakers(items: array<RawItem>)
    modifies items
    ensures forall k :: 0 <= k < items.Length ==>
      items[k] == RawItem(Some(NormalizeSpeaker(old(items[k]).speaker)), old(items[k]).text)
  {
    var i := 0;
    while i < items.Length
      invariant i <= items.Length
      invariant forall k :: 0 <= k < i ==>
        items[k] == RawItem(Some(NormalizeSpeaker(old(items[k]).speaker)), old(items[k]).text)
      invariant forall k :: i <= k < items.Length ==> items[k] == old(items[k])
    {
      items[i] := RawItem(Some(NormalizeSpeaker(items[i].speaker)), items[i].text);
      i := i + 1;
    }
  }

  // ---------------------------------------------------------------- speech for one line

  /** One line of the validated script. */
  datatype DialogueItem = DialogueItem(speaker: string, text: string)

  /** The validated script: the guest's name and the lines. */
  datatype Script = Script(nameOfGuest: string, dialogue: seq<DialogueItem>)

  /** A speech request: the main app's speech function with a voice, the Runware call, or
      MeloTTS with an accent and a speed (its text cut to 500 characters). */
  datatype TtsRequest =
    | MainApp(text: string, voice: string)
    | RunwareTts(text: string)
    | MeloTts(text: string, accent: string, speed: real)

  /** The voice of a line when the main app's speech function is used: the host's voice
      for the host and the guest's voice for every other speaker. */
  function VoiceFor(speaker: string): (r: string)
    ensures r == VoiceHost || r == VoiceGuest
    ensures r == VoiceHost <==> speaker == HostSpeaker
  {
    assert VoiceHost[0] != VoiceGuest[0];
    if speaker == HostSpeaker then VoiceHost else VoiceGuest
  }

  /** `_segment_to_audio`: Runware when its key is set; otherwise MeloTTS, the host with
      accent EN-Default at speed 1.0 and every other speaker with EN-US at 0.9. */
  function SegmentRequest(text: string, speaker: string, useRunware: bool): (r: TtsRequest)
    ensures useRunware ==> r == RunwareTts(text)
    ensures !useRunware ==> r.MeloTts? && r.text == Prefix(text, 500)
    ensures !useRunware && speaker == HostSpeaker ==> r.accent == "EN-Default" && r.speed == 1.0
    ensures !useRunware && speaker != HostSpeaker ==> r.accent == "EN-US" && r.speed == 0.9
  {
    if useRunware then RunwareTts(text)
    else if speaker == HostSpeaker then MeloTts(Prefix(text, 500), "EN-Default", 1.0)
    else MeloTts(Prefix(text, 500), "EN-US", 0.9)
  }

  /** What the speech services gave back for one line: the first request's audio and, when
      that was empty outside the main app's path and the Runware key is set, the Runware
      retry's audio. */
  datatype LineAudio = LineAudio(first: Bytes, retry: Bytes)

  /** The requests made for one line: the main app's function with the speaker's voice;
      or the segment request, followed by a Runware retry when it gave no audio. Without
      the Runware key the retry returns at once and sends nothing. */
  function LineRequests(item: DialogueItem, useMainTts: bool, useRunware: bool, audio: LineAudio): (r: seq<TtsRequest>)
    ensures useMainTts ==> r == [MainApp(item.text, VoiceFor(item.speaker))]
    ensures !useMainTts ==> 1 <= |r| <= 2 && r[0] == SegmentRequest(item.text, item.speaker, useRunware)
    ensures !useMainTts ==> (|r| == 2 <==> audio.first == [] && useRunware)
    ensures |r| == 2 ==> r == [RunwareTts(item.text), RunwareTts(item.text)]
  {
    if useMainTts then [MainApp(item.text, VoiceFor(item.speaker))]
    else if audio.first == [] && useRunware then [SegmentRequest(item.text, item.speaker, useRunware), RunwareTts(item.text)]
    else [SegmentRequest(item.text, item.speaker, useRunware)]
  }

  /** The requests of every line, in order. */
  function AllRequests(script: Script, useMainTts: bool, useRunware: bool, audio: seq<LineAudio>): (r: seq<seq<TtsRequest>>)
    requires |audio| == |script.dialogue|
    ensures |r| == |script.dialogue|
    ensures forall k :: 0 <= k < |r| ==>
      r[k] == LineRequests(script.dialogue[k], useMainTts, useRunware, audio[k])
  {
    seq(|script.dialogue|, k requires 0 <= k < |script.dialogue| =>
      LineRequests(script.dialogue[k], useMainTts, useRunware, audio[k]))
  }

  /** The audio a line ends up with: the first request's, else the Runware retry's, and
      none at all when the retry has no key to call with. */
  function FinalAudio(useMainTts: bool, useRunware: bool, audio: LineAudio): (r: Bytes)
    ensures useMainTts || audio.first != [] ==> r == audio.first
    ensures !useMainTts && audio.first == [] && useRunware ==> r == audio.retry
    ensures !useMainTts && !useRunware && audio.first == [] ==> r == []
  {
    if useMainTts || audio.first != [] then audio.first
    else if useRunware then audio.retry
    else []
  }

  /** Host and guest lines never share a voice: distinct ElevenLabs voices in the main
      app's path, distinct MeloTTS accents otherwise. */
  lemma HostAndGuestSoundDifferent(hostText: string, otherText: string, other: string, useRunware: bool)
    requires other != HostSpeaker
    ensures VoiceFor(HostSpeaker) != VoiceFor(other)
    ensures !useRunware ==>
      SegmentRequest(hostText, HostSpeaker, useRunware).accent != SegmentRequest(otherText, other, useRunware).accent
  {
    assert VoiceHost[0] != VoiceGuest[0];
    assert "EN-Default"[3] != "EN-US"[3];
  }

  // ---------------------------------------------------------------- generate_podcast_mp3

  const NoAudioError: string := "No audio generated. Set RUNWARE_API_KEY in .env for reliable podcast TTS."

  /** The bold transcript label: the host is labelled Host and every other speaker with
      the guest's name. */
  function SpeakerLabel(speaker: string, nameOfGuest: string): (r: string)
    ensures |r| >= 4 && r[..2] == "**" && r[|r| - 2..] == "**"
    ensures speaker == HostSpeaker ==> r[2..|r| - 2] == "Host"
    ensures speaker != HostSpeaker ==> r[2..|r| - 2] == nameOfGuest
  {
    if speaker == HostSpeaker then "**Host**" else "**" + nameOfGuest + "**"
  }

  /** The transcript entries: one per line, in order, whether or not it got audio. */
  function TranscriptLines(script: Script): (r: seq<string>)
    ensures |r| == |script.dialogue|
    ensures forall k :: 0 <= k < |r| ==>
      r[k] == SpeakerLabel(script.dialogue[k].speaker, script.nameOfGuest) + ": " + script.dialogue[k].text
  {
    seq(|script.dialogue|, k requires 0 <= k < |script.dialogue| =>
      SpeakerLabel(script.dialogue[k].speaker, script.nameOfGuest) + ": " + script.dialogue[k].text)
  }

  /** The audio segments: the final audio of each line that has some, in order. */
  function Segments(useMainTts: bool, useRunware: bool, audio: seq<LineAudio>): (r: seq<Bytes>)
    ensures |r| <= |audio|
    ensures forall k :: 0 <= k < |r| ==> r[k] != []
  {
    if audio == [] then []
    else
      var a := FinalAudio(useMainTts, useRunware, audio[0]);
      (if a != [] then [a] else []) + Segments(useMainTts, useRunware, audio[1..])
  }

  /** There are no segments exactly when no line got audio. */
  lemma {:induction false} SegmentsEmpty(useMainTts: bool, useRunware: bool, audio: seq<LineAudio>)
    ensures Segments(useMainTts, useRunware, audio) == [] <==>
      forall k :: 0 <= k < |audio| ==> FinalAudio(useMainTts, useRunware, audio[k]) == []
  {
    if audio != [] {
      SegmentsEmpty(useMainTts, useRunware, audio[1..]);
      assert forall k :: 1 <= k < |audio| ==> audio[1..][k - 1] == audio[k];
    }
  }

  /** Every line with audio contributes its audio as a segment. */
  lemma {:induction false} SegmentsKeepAudio(useMainTts: bool, useRunware: bool, audio: seq<LineAudio>, k: nat)
    requires k < |audio| && FinalAudio(useMainTts, useRunware, audio[k]) != []
    ensures FinalAudio(useMainTts, useRunware, audio[k]) in Segments(useMainTts, useRunware, audio)
  {
    if k > 0 {
      SegmentsKeepAudio(useMainTts, useRunware, audio[1..], k - 1);
      assert audio[1..][k - 1] == audio[k];
    }
  }

  /** The segments of two runs of lines are the segments of the first run followed by
      those of the second: no line is reordered or dropped except for lacking audio. */
  lemma {:induction false} SegmentsAppend(useMainTts: bool, useRunware: bool, a: seq<LineAudio>, b: seq<LineAudio>)
    ensures Segments(useMainTts, useRunware, a + b)
      == Segments(useMainTts, useRunware, a) + Segments(useMainTts, useRunware, b)
  {
    if a == [] {
      assert a + b == b;
    } else {
      SegmentsAppend(useMainTts, useRunware, a[1..], b);
      SegmentsAppendStep(useMainTts, useRunware, a, b);
    }
  }

  /** The inductive step of `SegmentsAppend`. */
  lemma SegmentsAppendStep(useMainTts: bool, useRunware: bool, a: seq<LineAudio>, b: seq<LineAudio>)
    requires a != []
    requires Segments(useMainTts, useRunware, a[1..] + b)
      == Segments(useMainTts, useRunware, a[1..]) + Segments(useMainTts, useRunware, b)
    ensures Segments(useMainTts, useRunware, a + b)
      == Segments(useMainTts, useRunware, a) + Segments(useMainTts, useRunware, b)
  {
    var f := FinalAudio(useMainTts, useRunware, a[0]);
    var h := if f != [] then [f] else [];
    var x, y := Segments(useMainTts, useRunware, a[1..]), Segments(useMainTts, useRunware, b);
    SegmentsFront(useMainTts, useRunware, a, b);
    assert Segments(useMainTts, useRunware, a) == h + x;
    AppendAssoc(h, x, y);
  }

  /** The first line of `a + b` contributes its segment before those of the rest. */
  lemma SegmentsFront(useMainTts: bool, useRunware: bool, a: seq<LineAudio>, b: seq<LineAudio>)
    requires a != []
    ensures var f := FinalAudio(useMainTts, useRunware, a[0]);
      Segments(useMainTts, useRunware, a + b)
        == (if f != [] then [f] else []) + Segments(useMainTts, useRunware, a[1..] + b)
  {
    assert (a + b)[1..] == a[1..] + b;
  }

  /** A single line gives its final audio as one segment, or nothing when that is empty. */
  lemma SegmentsSingle(useMainTts: bool, useRunware: bool, line: LineAudio)
    ensures var a := FinalAudio(useMainTts, useRunware, line);
      Segments(useMainTts, useRunware, [line]) == if a != [] then [a] else []
  {
    assert [line][1..] == [];
  }

  /** Peeling one line off the front of the remaining audio. */
  lemma SegmentsStep(done: seq<Bytes>, useMainTts: bool, useRunware: bool, audio: seq<LineAudio>, i: nat)
    requires i < |audio|
    ensures var a := FinalAudio(useMainTts, useRunware, audio[i]);
      done + Segments(useMainTts, useRunware, audio[i..])
        == (if a != [] then done + [a] else done) + Segments(useMainTts, useRunware, audio[i + 1..])
  {
    var a := FinalAudio(useMainTts, useRunware, audio[i]);
    var rest := Segments(useMainTts, useRunware, audio[i + 1..]);
    assert audio[i..][1..] == audio[i + 1..];
    assert Segments(useMainTts, useRunware, audio[i..]) == (if a != [] then [a] else []) + rest;
    if a != [] {
      assert (done + [a]) + rest == done + ([a] + rest);
    } else {
      assert [] + rest == rest;
    }
  }

  /** The transcript so far grows by the entry of line `i`. */
  lemma TranscriptStep(script: Script, i: nat)
    requires i < |script.dialogue|
    ensures TranscriptLines(script)[..i + 1] == TranscriptLines(script)[..i]
      + [SpeakerLabel(script.dialogue[i].speaker, script.nameOfGuest) + ": " + script.dialogue[i].text]
  {
  }

  /** The requests so far grow by the requests of line `i`. */
  lemma RequestsStep(script: Script, useMainTts: bool, useRunware: bool, audio: seq<LineAudio>, i: nat)
    requires |audio| == |script.dialogue| && i < |script.dialogue|
    ensures AllRequests(script, useMainTts, useRunware, audio)[..i + 1] == AllRequests(script, useMainTts, useRunware, audio)[..i]
      + [LineRequests(script.dialogue[i], useMainTts, useRunware, audio[i])]
  {
  }

  /** The speech requests of one loop iteration and the audio the line ends up with. */
  method SpeakLine(item: DialogueItem, useMainTts: bool, useRunware: bool, audio: LineAudio)
    returns (requests: seq<TtsRequest>, bytes: Bytes)
    ensures requests == LineRequests(item, useMainTts, useRunware, audio)
    ensures bytes == FinalAudio(useMainTts, useRunware, audio)
  {
    if useMainTts {
      requests := [MainApp(item.text, VoiceFor(item.speaker))];
      bytes := audio.first;
    } else {
      var first := SegmentRequest(item.text, item.speaker, useRunware);
      bytes := audio.first;
      requests := [first];
      if bytes == [] {
        if useRunware {
          requests := requests + [RunwareTts(item.text)];
          bytes := audio.retry;
        }
      }
    }
  }

  /** What `generate_podcast_mp3` hands back before the audio is joined and encoded. */
  datatype Episode = Episode(segments: seq<Bytes>, transcript: string)

  /** The loop of `generate_podcast_mp3` over the lines: the transcript entry of every
      line, the speech requests made for it, and the audio of each line that got some. */
  method SpeakAll(script: Script, useMainTts: bool, useRunware: bool, audio: seq<LineAudio>)
    returns (segments: seq<Bytes>, transcript: seq<string>, requests: seq<seq<TtsRequest>>)
    requires |audio| == |script.dialogue|
    ensures segments == Segments(useMainTts, useRunware, audio)
    ensures transcript == TranscriptLines(script)
    ensures requests == AllRequests(script, useMainTts, useRunware, audio)
  {
    segments := [];
    transcript := [];
    requests := [];
    var i := 0;
    assert audio[0..] == audio;
    assert [] + Segments(useMainTts, useRunware, audio) == Segments(useMainTts, useRunware, audio);
    while i < |script.dialogue|
      invariant i <= |script.dialogue|
      invariant transcript == TranscriptLines(script)[..i]
      invariant segments + Segments(useMainTts, useRunware, audio[i..]) == Segments(useMainTts, useRunware, audio)
      invariant requests == AllRequests(script, useMainTts, useRunware, audio)[..i]
    {
      var item := script.dialogue[i];
      TranscriptStep(script, i);
      transcript := transcript + [SpeakerLabel(item.speaker, script.nameOfGuest) + ": " + item.text];
      var lineRequests, bytes := SpeakLine(item, useMainTts, useRunware, audio[i]);
      RequestsStep(script, useMainTts, useRunware, audio, i);
      requests := requests + [lineRequests];
      SegmentsStep(segments, useMainTts, useRunware, audio, i);
      if bytes != [] {
        segments := segments + [bytes];
      }
      i := i + 1;
    }
    assert Segments(useMainTts, useRunware, audio[i..]) == [];
    assert segments + [] == segments;
    assert TranscriptLines(script)[..i] == TranscriptLines(script);
    assert AllRequests(script, useMainTts, useRunware, audio)[..i] == AllRequests(script, useMainTts, useRunware, audio);
  }

  /** `generate_podcast_mp3` from the validated script on: the error when no line got
      audio, and otherwise the segments and the transcript with entries separated by a
      blank line. */
  method GeneratePodcast(script: Script, useMainTts: bool, useRunware: bool, audio: seq<LineAudio>)
    returns (r: Result<Episode, string>, requests: seq<seq<TtsRequest>>)
    requires |audio| == |script.dialogue|
    ensures requests == AllRequests(script, useMainTts, useRunware, audio)
    ensures r.Err? <==> Segments(useMainTts, useRunware, audio) == []
    ensures r.Err? ==> r.error == NoAudioError
    ensures r.Ok? ==> r.value == Episode(Segments(useMainTts, useRunware, audio), Join("\n\n", TranscriptLines(script)))
  {
    var segments, transcript;
    segments, transcript, requests := SpeakAll(script, useMainTts, useRunware, audio);
    if segments == [] {
      return Err(NoAudioError), requests;
    }
    r := Ok(Episode(segments, Join("\n\n", transcript)));
  }
}

=== FILE: rag.dfy ===
/** rag.py: the text normalisation used for page lookup, the page lookup itself, the
    sliding-window chunker, and the empty-index guards of `DocumentRAG`. */
module Rag {
  import opened Wrappers
  import opened Text

  predicate IsQuote(c: char) {
    c == '"' || c == '\''
  }

  predicate IsDot(c: char) {
    c == '.'
  }

  /** Hyphen, en dash and em dash: the class `[-–—]`. */
  predicate IsDash(c: char) {
    c == '-' || c == '\U{2013}' || c == '\U{2014}'
  }

  /** The length of the quote run `^["\']+` at the start of `s`. */
  function LeadingQuotes(s: string): (n: nat)
    ensures n <= |s|
    ensures forall i :: 0 <= i < n ==> IsQuote(s[i])
    ensures n < |s| ==> !IsQuote(s[n])
  {
    if s != [] && IsQuote(s[0]) then 1 + LeadingQuotes(s[1..]) else 0
  }

  /** The length of the quote run `["\']+$` at the end of `s`. */
  function TrailingQuotes(s: string): (n: nat)
    ensures n <= |s|
    ensures forall i :: |s| - n <= i < |s| ==> IsQuote(s[i])
    ensures n < |s| ==> !IsQuote(s[|s| - n - 1])
  {
    if s != [] && IsQuote(s[|s| - 1]) then 1 + TrailingQuotes(s[..|s| - 1]) else 0
  }

  /** The length of the period run at the end of `s`. */
  function TrailingDots(s: string): (n: nat)
    ensures n <= |s|
    ensures forall i :: |s| - n <= i < |s| ==> IsDot(s[i])
    ensures n < |s| ==> !IsDot(s[|s| - n - 1])
  {
    if s != [] && IsDot(s[|s| - 1]) then 1 + TrailingDots(s[..|s| - 1]) else 0
  }

  lemma SliceChars(s: string, lo: nat, hi: nat)
    requires lo <= hi <= |s|
    ensures forall c :: c in s[lo..hi] ==> c in s
  {
    forall c | c in s[lo..hi]
      ensures c in s
    {
      var k :| 0 <= k < hi - lo && s[lo..hi][k] == c;
      assert s[lo + k] == c;
    }
  }

  // ---------------------------------------------------------------- _normalize_for_match

  /** `re.sub(r'\*+', '', s)`: every asterisk goes, nothing else is added, and a string
      without asterisks is left as it is. */
  function RemoveStars(s: string): (r: string)
    ensures '*' !in r
    ensures forall c :: c in r ==> c in s
    ensures '*' !in s ==> r == s
  {
    if s == [] then []
    else (if s[0] == '*' then [] else [s[0]]) + RemoveStars(s[1..])
  }

  /** Asterisks are removed wherever they stand: removing them from two pieces and
      joining the results is removing them from the join. */
  lemma {:induction false} RemoveStarsAppend(a: string, b: string)
    ensures RemoveStars(a + b) == RemoveStars(a) + RemoveStars(b)
  {
    if a != [] {
      var x := a + b;
      assert x[0] == a[0] && x[1..] == a[1..] + b;
      var h := if a[0] == '*' then [] else [a[0]];
      RemoveStarsAppend(a[1..], b);
      assert RemoveStars(x) == h + RemoveStars(a[1..] + b);
      assert RemoveStars(a) == h + RemoveStars(a[1..]);
      Text.AppendAssoc(h, RemoveStars(a[1..]), RemoveStars(b));
    } else {
      assert a + b == b;
    }
  }

  /** `s` without its trailing run of quotes: a prefix of `s`, only quotes cut, and not
      ending in a quote. */
  function DropTrailingQuotes(s: string): (r: string)
    ensures |r| <= |s| && r == s[..|r|]
    ensures forall i :: |r| <= i < |s| ==> IsQuote(s[i])
    ensures r == [] || !IsQuote(r[|r| - 1])
    ensures forall c :: c in r ==> c in s
  {
    SliceChars(s, 0, |s| - TrailingQuotes(s));
    s[..|s| - TrailingQuotes(s)]
  }

  /** `re.sub(r'^["\']+|["\']+$', '', s)`. Without MULTILINE, `$` matches at the end of
      the string and also just before a final newline, so a quote run standing in front
      of a final "\n" is removed as well. The result is the part of `s` after its leading
      quote run, with only quotes cut at the end (before the final newline, which stays),
      and it neither starts nor ends (before that newline) with a quote. */
  function StripQuotes(s: string): (r: string)
    ensures forall c :: c in r ==> c in s
    ensures r == [] || !IsQuote(r[0])
    ensures var a := LeadingQuotes(s);
      (s == [] || s[|s| - 1] != '\n') ==>
        && a + |r| <= |s| && r == s[a..a + |r|]
        && (forall i :: a + |r| <= i < |s| ==> IsQuote(s[i]))
        && (r == [] || !IsQuote(r[|r| - 1]))
    ensures var a := LeadingQuotes(s);
      (s != [] && s[|s| - 1] == '\n') ==>
        && |r| >= 1 && a + |r| <= |s| && r == s[a..a + |r| - 1] + "\n"
        && (forall i :: a + |r| - 1 <= i < |s| - 1 ==> IsQuote(s[i]))
        && (|r| == 1 || !IsQuote(r[|r| - 2]))
  {
    var a := LeadingQuotes(s);
    var r := if s != [] && s[|s| - 1] == '\n' then DropTrailingQuotes(s[a..|s| - 1]) + "\n"
      else DropTrailingQuotes(s[a..|s|]);
    QuotesStripped(s, a, r);
    r
  }

  /** The two shapes `StripQuotes` can return, with and without a final newline. */
  lemma QuotesStripped(s: string, a: nat, r: string)
    requires a == LeadingQuotes(s)
    requires r == if s != [] && s[|s| - 1] == '\n' then DropTrailingQuotes(s[a..|s| - 1]) + "\n"
      else DropTrailingQuotes(s[a..|s|])
    ensures forall c :: c in r ==> c in s
    ensures r == [] || !IsQuote(r[0])
    ensures (s == [] || s[|s| - 1] != '\n') ==>
      && a + |r| <= |s| && r == s[a..a + |r|]
      && (forall i :: a + |r| <= i < |s| ==> IsQuote(s[i]))
      && (r == [] || !IsQuote(r[|r| - 1]))
    ensures (s != [] && s[|s| - 1] == '\n') ==>
      && |r| >= 1 && a + |r| <= |s| && r == s[a..a + |r| - 1] + "\n"
      && (forall i :: a + |r| - 1 <= i < |s| - 1 ==> IsQuote(s[i]))
      && (|r| == 1 || !IsQuote(r[|r| - 2]))
  {
    if s != [] && s[|s| - 1] == '\n' {
      QuotesStrippedNewline(s, a, r);
    } else {
      QuotesStrippedPlain(s, a, r);
    }
  }

  /** Without a final newline only a trailing quote run is cut. */
  lemma QuotesStrippedPlain(s: string, a: nat, r: string)
    requires a == LeadingQuotes(s)
    requires s == [] || s[|s| - 1] != '\n'
    requires r == DropTrailingQuotes(s[a..|s|])
    ensures forall c :: c in r ==> c in s
    ensures r == [] || !IsQuote(r[0])
    ensures a + |r| <= |s| && r == s[a..a + |r|]
    ensures forall i :: a + |r| <= i < |s| ==> IsQuote(s[i])
    ensures r == [] || !IsQuote(r[|r| - 1])
  {
    DropQuotesInside(s, a, |s|, r);
  }

  /** With a final newline the quote run in front of it is cut and the newline stays. */
  lemma QuotesStrippedNewline(s: string, a: nat, r: string)
    requires a == LeadingQuotes(s)
    requires s != [] && s[|s| - 1] == '\n'
    requires r == DropTrailingQuotes(s[a..|s| - 1]) + "\n"
    ensures forall c :: c in r ==> c in s
    ensures r == [] || !IsQuote(r[0])
    ensures |r| >= 1 && a + |r| <= |s| && r == s[a..a + |r| - 1] + "\n"
    ensures forall i :: a + |r| - 1 <= i < |s| - 1 ==> IsQuote(s[i])
    ensures |r| == 1 || !IsQuote(r[|r| - 2])
  {
    var d := DropTrailingQuotes(s[a..|s| - 1]);
    DropQuotesInside(s, a, |s| - 1, d);
    NewlineKept(s, a, d, r);
    assert r[0] == if d == [] then '\n' else d[0];
    forall c | c in r
      ensures c in s
    {
      if c != '\n' {
        assert c in d;
      }
    }
  }

  /** Putting the final newline back after the quote-free part `d` of `s[a..|s| - 1]`:
      the result is that part of `s` with its newline, and only quotes were cut. */
  lemma NewlineKept(s: string, a: nat, d: string, r: string)
    requires s != [] && s[|s| - 1] == '\n'
    requires a + |d| <= |s| - 1 && d == s[a..a + |d|]
    requires forall i :: a + |d| <= i < |s| - 1 ==> IsQuote(s[i])
    requires d == [] || !IsQuote(d[|d| - 1])
    requires r == d + "\n"
    ensures |r| >= 1 && a + |r| <= |s| && r == s[a..a + |r| - 1] + "\n"
    ensures forall i :: a + |r| - 1 <= i < |s| - 1 ==> IsQuote(s[i])
    ensures |r| == 1 || !IsQuote(r[|r| - 2])
  {
    assert |r| == |d| + 1;
    if |d| > 0 {
      assert r[|r| - 2] == d[|d| - 1];
    }
  }

  /** Dropping the trailing quotes of the slice `s[a..e]` in terms of `s`. */
  lemma DropQuotesInside(s: string, a: nat, e: nat, d: string)
    requires a <= e <= |s|
    requires d == DropTrailingQuotes(s[a..e])
    ensures a + |d| <= e && d == s[a..a + |d|]
    ensures forall i :: a + |d| <= i < e ==> IsQuote(s[i])
    ensures d == [] || !IsQuote(d[|d| - 1])
    ensures forall c :: c in d ==> c in s
    ensures a < |s| && !IsQuote(s[a]) ==> d == [] || !IsQuote(d[0])
  {
    var t := s[a..e];
    forall i | a + |d| <= i < e
      ensures IsQuote(s[i])
    {
      assert s[i] == t[i - a];
    }
    SliceChars(s, a, e);
  }

  predicate EndsWithTwoDots(s: string) {
    |s| >= 2 && s[|s| - 1] == '.' && s[|s| - 2] == '.'
  }

  /** A trailing run of two or more periods is removed, all of it; a single period stays
      and so does every string not ending in two periods. */
  function DropDotRun(s: string): (r: string)
    ensures !EndsWithTwoDots(r)
    ensures forall c :: c in r ==> c in s
    ensures |r| <= |s| && r == s[..|r|]
    ensures forall i :: |r| <= i < |s| ==> s[i] == '.'
    ensures r == s <==> !EndsWithTwoDots(s)
    ensures r != s ==> r == [] || r[|r| - 1] != '.'
  {
    var k := TrailingDots(s);
    SliceChars(s, 0, |s| - k);
    if k >= 2 then s[..|s| - k] else s
  }

  /** `re.sub(r'\.{2,}$', '', s)`, with `$` read as in `StripQuotes`: the dot run is cut
      at the end of the string, or in front of a final newline, which stays. */
  function DropEllipsis(s: string): (r: string)
    ensures !EndsWithTwoDots(r)
    ensures forall c :: c in r ==> c in s
    ensures (s == [] || s[|s| - 1] != '\n') ==> r == DropDotRun(s)
    ensures (s != [] && s[|s| - 1] == '\n') ==> r == DropDotRun(s[..|s| - 1]) + "\n"
  {
    if s != [] && s[|s| - 1] == '\n' then
      SliceChars(s, 0, |s| - 1);
      DropDotRun(s[..|s| - 1]) + "\n"
    else
      DropDotRun(s)
  }

  /** `re.sub(r'\s+', ' ', s)`: each maximal run of whitespace becomes one space, so the
      only whitespace left is ' ' and every other character comes from `s`; a string
      of whitespace only becomes a single space (`CollapseAround` gives the rest). */
  function CollapseSpace(s: string): (r: string)
    decreases |s|
    ensures |r| <= |s|
    ensures forall i :: 0 <= i < |r| && IsSpace(r[i]) ==> r[i] == ' '
    ensures forall c :: c in r ==> c in s || c == ' '
    ensures s != [] && AllSpace(s) ==> r == " "
  {
    if s == [] then []
    else if !IsSpace(s[|s| - 1]) then
      SliceChars(s, 0, |s| - 1);
      CollapseSpace(s[..|s| - 1]) + [s[|s| - 1]]
    else
      SliceChars(s, 0, |RStrip(s)|);
      CollapseSpace(RStrip(s)) + [' ']
  }

  /** A collapsed string that ends in a non-space character got it from the end of the
      input, and the rest is the collapse of the rest. */
  lemma CollapseLast(s: string)
    requires CollapseSpace(s) != []
    requires !IsSpace(CollapseSpace(s)[|CollapseSpace(s)| - 1])
    ensures s != [] && s[|s| - 1] == CollapseSpace(s)[|CollapseSpace(s)| - 1]
    ensures CollapseSpace(s[..|s| - 1]) == CollapseSpace(s)[..|CollapseSpace(s)| - 1]
  {
  }

  /** The two ways `CollapseSpace` peels the end of a non-empty string. */
  lemma CollapseLastChar(s: string)
    requires s != [] && !IsSpace(s[|s| - 1])
    ensures CollapseSpace(s) == CollapseSpace(s[..|s| - 1]) + [s[|s| - 1]]
  {
  }

  lemma CollapseLastSpace(s: string)
    requires s != [] && IsSpace(s[|s| - 1])
    ensures CollapseSpace(s) == CollapseSpace(RStrip(s)) + [' ']
  {
  }

  /** A whitespace run never spans a non-space character: collapsing around one collapses
      each side on its own. */
  lemma {:induction false} CollapseAround(a: string, c: char, b: string)
    requires !IsSpace(c)
    decreases |b|
    ensures CollapseSpace(a + [c] + b) == CollapseSpace(a) + [c] + CollapseSpace(b)
  {
    var x := a + [c];
    var s := x + b;
    if b == [] {
      assert s == x;
      CollapseLastChar(x);
      assert x[..|x| - 1] == a;
    } else if !IsSpace(b[|b| - 1]) {
      var b' := b[..|b| - 1];
      CollapseAround(a, c, b');
      CollapseLastChar(s);
      CollapseLastChar(b);
      assert s[..|s| - 1] == x + b';
      AppendAssoc(CollapseSpace(a) + [c], CollapseSpace(b'), [b[|b| - 1]]);
    } else {
      var rb := RStrip(b);
      RStripAfter(a, c, b);
      CollapseAround(a, c, rb);
      CollapseLastSpace(s);
      CollapseLastSpace(b);
      AppendAssoc(CollapseSpace(a) + [c], CollapseSpace(rb), [' ']);
    }
  }

  /** `re.sub(r'[-–—]', ' ', s)`: every dash becomes a space and nothing else changes. */
  function DashesToSpaces(s: string): (r: string)
    ensures |r| == |s|
    ensures forall i :: 0 <= i < |r| ==> !IsDash(r[i])
    ensures forall i :: 0 <= i < |s| ==> (IsDash(s[i]) ==> r[i] == ' ') && (!IsDash(s[i]) ==> r[i] == s[i])
  {
    seq(|s|, i requires 0 <= i < |s| => if IsDash(s[i]) then ' ' else s[i])
  }

  /** `_normalize_for_match`: strip, drop asterisks, drop the leading and the trailing
      quote runs, drop a trailing ellipsis, collapse whitespace, dashes to spaces, lower.
      The result has no asterisk, no dash and no whitespace but ' ', and it never ends
      with two periods: the ellipsis is cut before any step that could move characters
      to the end, and no later step makes a period. */
  function NormalizeForMatch(text: string): (r: string)
    ensures CleanChars(r)
    ensures !EndsWithTwoDots(r)
  {
    var d := DropEllipsis(StripQuotes(RemoveStars(Strip(text))));
    CollapseNoStar(d);
    DashesLowerClean(CollapseSpace(d));
    CollapseNoEllipsis(d);
    DashesLowerDots(CollapseSpace(d));
    Lower(DashesToSpaces(CollapseSpace(d)))
  }

  /** No asterisk, no dash, and no whitespace other than ' '. */
  predicate CleanChars(s: string) {
    forall i :: 0 <= i < |s| ==> s[i] != '*' && !IsDash(s[i]) && (IsSpace(s[i]) ==> s[i] == ' ')
  }

  lemma CollapseNoStar(d: string)
    requires '*' !in d
    ensures forall i :: 0 <= i < |CollapseSpace(d)| ==>
      CollapseSpace(d)[i] != '*' && (IsSpace(CollapseSpace(d)[i]) ==> CollapseSpace(d)[i] == ' ')
  {
    var e := CollapseSpace(d);
    forall i | 0 <= i < |e|
      ensures e[i] != '*'
    {
      assert e[i] in e;
    }
  }

  lemma DashesLowerClean(e: string)
    requires forall i :: 0 <= i < |e| ==> e[i] != '*' && (IsSpace(e[i]) ==> e[i] == ' ')
    ensures CleanChars(Lower(DashesToSpaces(e)))
  {
    var f := DashesToSpaces(e);
    assert CleanChars(f);
  }

  /** Dashes-to-spaces and lower-casing neither make nor remove periods. */
  lemma DashesLowerDots(e: string)
    ensures EndsWithTwoDots(Lower(DashesToSpaces(e))) <==> EndsWithTwoDots(e)
  {
    var g := Lower(DashesToSpaces(e));
    assert |g| == |e|;
    assert forall i :: 0 <= i < |e| ==> (g[i] == '.' <==> e[i] == '.');
  }

  /** Collapsing whitespace cannot make a string end with two periods. */
  lemma CollapseNoEllipsis(d: string)
    requires !EndsWithTwoDots(d)
    ensures !EndsWithTwoDots(CollapseSpace(d))
  {
    var e := CollapseSpace(d);
    if EndsWithTwoDots(e) {
      CollapseLast(d);
      CollapseLast(d[..|d| - 1]);
    }
  }

  // ---------------------------------------------------------------- _find_page_for_text

  /** One entry of `page_text_map`, which is kept in insertion order. */
  datatype Page = Page(num: int, text: string)

  /** The page side of the comparison: whitespace collapsed, lower case, dashes to spaces;
      no dash and no whitespace but ' ' is left. */
  function PageClean(t: string): (r: string)
    ensures forall i :: 0 <= i < |r| ==> !IsDash(r[i]) && (IsSpace(r[i]) ==> r[i] == ' ')
  {
    var e := CollapseSpace(t);
    var l := Lower(e);
    assert forall i :: 0 <= i < |l| && IsSpace(l[i]) ==> l[i] == e[i];
    DashesToSpaces(l)
  }

  /** `text_clean.split('.')[0][:60]` */
  function FirstPhrase(clean: string): string {
    Prefix(Before(clean, "."), 60)
  }

  /** The probe ladder for one page: the first 80 characters; the first 50 or 30 when the
      text is longer than that; the first phrase when it is longer than 20. A page that
      holds the whole text is always hit. */
  predicate ProbeHits(clean: string, pageText: string)
    ensures Contains(PageClean(pageText), clean) ==> ProbeHits(clean, pageText)
  {
    var pc := PageClean(pageText);
    ContainsPrefix(pc, clean, 80);
    || Contains(pc, Prefix(clean, 80))
    || (|clean| > 50 && Contains(pc, Prefix(clean, 50)))
    || (|clean| > 30 && Contains(pc, Prefix(clean, 30)))
    || (|FirstPhrase(clean)| > 20 && Contains(pc, FirstPhrase(clean)))
  }

  /** `not text or not text.strip()` */
  predicate IsBlank(text: string) {
    text == [] || Strip(text) == []
  }

  /** The first page at or after `i` whose text satisfies `hit`. */
  function FirstHit(hit: string -> bool, pages: seq<Page>, i: nat): (r: Option<nat>)
    decreases |pages| - i
    ensures r.Some? ==> i <= r.value < |pages| && hit(pages[r.value].text)
    ensures r.Some? ==> forall j :: i <= j < r.value ==> !hit(pages[j].text)
    ensures r.None? ==> forall j :: i <= j < |pages| ==> !hit(pages[j].text)
  {
    if i >= |pages| then None
    else if hit(pages[i].text) then Some(i)
    else FirstHit(hit, pages, i + 1)
  }

  /** `_find_page_for_text`: nothing for blank text; otherwise the number of the first page,
      in map order, that a probe hits, and nothing only when no page is hit. */
  function FindPageForText(text: string, pages: seq<Page>): (r: Option<int>)
    ensures IsBlank(text) ==> r == None
    ensures r.Some? ==> exists i :: (0 <= i < |pages| && pages[i].num == r.value
      && ProbeHits(NormalizeForMatch(text), pages[i].text)
      && forall j :: 0 <= j < i ==> !ProbeHits(NormalizeForMatch(text), pages[j].text))
    ensures !IsBlank(text) && r == None ==>
      forall i :: 0 <= i < |pages| ==> !ProbeHits(NormalizeForMatch(text), pages[i].text)
  {
    if IsBlank(text) then None
    else
      FirstPageHit(NormalizeForMatch(text), pages)
  }

  /** The number of the first page, in map order, that a probe for `clean` hits. */
  function FirstPageHit(clean: string, pages: seq<Page>): (r: Option<int>)
    ensures r.Some? ==> exists i :: (0 <= i < |pages| && pages[i].num == r.value
      && ProbeHits(clean, pages[i].text)
      && forall j :: 0 <= j < i ==> !ProbeHits(clean, pages[j].text))
    ensures r == None ==> forall i :: 0 <= i < |pages| ==> !ProbeHits(clean, pages[i].text)
  {
    match FirstHit(t => ProbeHits(clean, t), pages, 0)
    case Some(i) => Some(pages[i].num)
    case None => None
  }

  /** A page whose cleaned text holds the whole normalised snippet is always found: the
      lookup answers with that page or an earlier one. */
  lemma FindPageWholeText(text: string, pages: seq<Page>, i: nat)
    requires !IsBlank(text) && i < |pages|
    ensures Contains(PageClean(pages[i].text), NormalizeForMatch(text)) ==> FindPageForText(text, pages).Some?
  {
    var hit := ProbeHits(NormalizeForMatch(text), pages[i].text);
  }

  // ---------------------------------------------------------------- build_chunks

  datatype Chunk = Chunk(text: string, page: Option<int>, sentenceIndices: seq<int>)

  /** `list(range(lo, hi))` */
  function Range(lo: int, hi: int): (r: seq<int>)
    ensures |r| == if lo < hi then hi - lo else 0
    ensures forall k :: 0 <= k < |r| ==> r[k] == lo + k
  {
    seq(if lo < hi then hi - lo else 0, k => lo + k)
  }

  function Min(a: int, b: int): int {
    if a < b then a else b
  }

  /** The page lookup `build_chunks` applies to each chunk text. */
  function PageLookup(pages: seq<Page>): string -> Option<int> {
    t => FindPageForText(t, pages)
  }

  /** Where Python's `xs[lo:hi]` stops on a list of length `n` when `hi <= n`: a negative
      `hi` counts from the end, and one before the start stops at 0. */
  function SliceStop(n: nat, hi: int): (r: nat)
    requires hi <= n
    ensures r <= n
    ensures hi >= 0 ==> r == hi
    ensures hi < 0 ==> r == if hi + n >= 0 then hi + n else 0
  {
    if hi >= 0 then hi else if hi + n >= 0 then hi + n else 0
  }

  /** The chunk the loop body builds for the window starting at `i`; `pageOf` is the page
      lookup, `PageLookup(page_text_map)` in `build_chunks`. With a positive chunk size it
      covers `i` and at most `chunkSize` indices from there; with a non-positive one
      `range(i, end)` is empty, and the text is what the slice with a negative end
      still holds. */
  function ChunkAt(sentences: seq<string>, pageOf: string -> Option<int>, i: nat, chunkSize: int): (c: Chunk)
    requires i < SliceStop(|sentences|, Min(i + chunkSize, |sentences|))
    ensures chunkSize >= 1 ==> 1 <= |c.sentenceIndices| <= chunkSize && c.sentenceIndices[0] == i
    ensures chunkSize <= 0 ==> c.sentenceIndices == []
    ensures c.page == pageOf(c.text)
  {
    var end := Min(i + chunkSize, |sentences|);
    var text := Join(" ", sentences[i..SliceStop(|sentences|, end)]);
    Chunk(text, pageOf(text), Range(i, end))
  }

  /** The chunks for window starts `i, i + step, ...` below the sentence count, skipping
      the windows whose slice is empty: at most one per start (`ChunksFromCount` gives
      the exact bound). */
  function ChunksFrom(sentences: seq<string>, pageOf: string -> Option<int>, chunkSize: int, step: nat, i: nat): (r: seq<Chunk>)
    requires step >= 1
    decreases |sentences| - i
    ensures i >= |sentences| ==> r == []
    ensures i < |sentences| ==> |r| <= |sentences| - i
  {
    if i >= |sentences| then []
    else
      (if i < SliceStop(|sentences|, Min(i + chunkSize, |sentences|))
        then [ChunkAt(sentences, pageOf, i, chunkSize)] else [])
      + ChunksFrom(sentences, pageOf, chunkSize, step, i + step)
  }

  /** One chunk at most per window start: fewer than `(n - i) / step + 1` of them. */
  lemma ChunksFromCount(sentences: seq<string>, pageOf: string -> Option<int>, chunkSize: int, step: nat, i: nat)
    requires step >= 1 && i < |sentences|
    ensures |ChunksFrom(sentences, pageOf, chunkSize, step, i)| * step < |sentences| - i + step
  {
    ChunksFromStarts(sentences, pageOf, chunkSize, step, i);
    StartsBound(|sentences| - i, step);
    MulLe(|ChunksFrom(sentences, pageOf, chunkSize, step, i)|, Starts(|sentences| - i, step), step, |sentences| - i + step);
  }

  /** The number of window starts `0, step, 2 * step, ...` below `d`. */
  function Starts(d: int, step: nat): nat
    requires step >= 1
    decreases d
  {
    if d <= 0 then 0 else 1 + Starts(d - step, step)
  }

  /** No more chunks than window starts. */
  lemma {:induction false} ChunksFromStarts(sentences: seq<string>, pageOf: string -> Option<int>, chunkSize: int, step: nat, i: nat)
    requires step >= 1
    decreases |sentences| - i
    ensures |ChunksFrom(sentences, pageOf, chunkSize, step, i)| <= Starts(|sentences| - i, step)
  {
    if i < |sentences| {
      ChunksFromStarts(sentences, pageOf, chunkSize, step, i + step);
      ChunksFromNext(sentences, pageOf, chunkSize, step, i);
      assert |sentences| - i - step == |sentences| - (i + step);
    }
  }

  /** The starts below a positive `d` take up less than `d + step`. */
  lemma {:induction false} StartsBound(d: int, step: nat)
    requires step >= 1
    decreases d
    ensures d > 0 ==> Starts(d, step) * step < d + step
    ensures d <= 0 ==> Starts(d, step) == 0
  {
    if d > 0 {
      StartsBound(d - step, step);
      MulSucc(Starts(d - step, step), step);
    }
  }

  /** Multiplying both sides of `n <= w` by the same step keeps the bound. */
  lemma MulLe(n: nat, w: nat, step: nat, d: int)
    requires n <= w && w * step < d
    ensures n * step < d
  {
    assert n * step <= w * step;
  }

  /** The window at `i` adds one chunk at most to those from the next start on. */
  lemma ChunksFromNext(sentences: seq<string>, pageOf: string -> Option<int>, chunkSize: int, step: nat, i: nat)
    requires step >= 1 && i < |sentences|
    ensures |ChunksFrom(sentences, pageOf, chunkSize, step, i)|
      <= |ChunksFrom(sentences, pageOf, chunkSize, step, i + step)| + 1
  {
  }

  /** With a positive chunk size no window from a start below the sentence count is
      empty, so each start gives exactly one chunk. */
  lemma ChunksFromHead(sentences: seq<string>, pageOf: string -> Option<int>, chunkSize: int, step: nat, i: nat)
    requires chunkSize >= 1 && step >= 1 && i < |sentences|
    ensures i < SliceStop(|sentences|, Min(i + chunkSize, |sentences|))
    ensures ChunksFrom(sentences, pageOf, chunkSize, step, i)
      == [ChunkAt(sentences, pageOf, i, chunkSize)] + ChunksFrom(sentences, pageOf, chunkSize, step, i + step)
  {
  }

  /** The start of window `k + 1` is one step past that of window `k`. */
  lemma MulSucc(k: nat, step: nat)
    ensures k * step + step == (k + 1) * step
  {
  }

  /** The chunk list `build_chunks` returns: no more chunks than sentences. */
  function Chunks(sentences: seq<string>, pageOf: string -> Option<int>, chunkSize: int, overlap: int): (r: seq<Chunk>)
    requires chunkSize > overlap
    ensures |r| <= |sentences|
  {
    ChunksFrom(sentences, pageOf, chunkSize, chunkSize - overlap, 0)
  }

  /** `build_chunks` makes one chunk at most per window start: fewer than
      `n / (chunk_size - overlap) + 1` chunks. */
  lemma ChunksCount(sentences: seq<string>, pageOf: string -> Option<int>, chunkSize: int, overlap: int)
    requires chunkSize > overlap
    ensures |Chunks(sentences, pageOf, chunkSize, overlap)| * (chunkSize - overlap) < |sentences| + (chunkSize - overlap)
  {
    if |sentences| > 0 {
      ChunksFromCount(sentences, pageOf, chunkSize, chunkSize - overlap, 0);
    }
  }

  /** `build_chunks`. A zero step makes Python's `range` raise and a negative one yields
      nothing, so the step is required to be positive. */
  method BuildChunks(sentences: seq<string>, pages: seq<Page>, chunkSize: int, overlap: int)
    returns (chunks: seq<Chunk>)
    requires chunkSize > overlap
    ensures chunks == Chunks(sentences, PageLookup(pages), chunkSize, overlap)
    ensures |sentences| == 0 ==> chunks == []
  {
    chunks := ChunkLoop(sentences, PageLookup(pages), chunkSize, overlap);
  }

  /** The loop of `build_chunks` for a given page lookup. */
  method ChunkLoop(sentences: seq<string>, pageOf: string -> Option<int>, chunkSize: int, overlap: int)
    returns (chunks: seq<Chunk>)
    requires chunkSize > overlap
    ensures chunks == Chunks(sentences, pageOf, chunkSize, overlap)
  {
    var step: nat := chunkSize - overlap;
    ghost var all := ChunksFrom(sentences, pageOf, chunkSize, step, 0);
    chunks := [];
    var i: nat := 0;
    assert [] + all == all;
    while i < |sentences|
      invariant chunks + ChunksFrom(sentences, pageOf, chunkSize, step, i) == all
    {
      ghost var done, at := chunks, i;
      var end := Min(i + chunkSize, |sentences|);
      if i < SliceStop(|sentences|, end) {
        chunks := chunks + [ChunkAt(sentences, pageOf, i, chunkSize)];
      }
      i := i + step;
      ChunkLoopStep(done, chunks, all, sentences, pageOf, chunkSize, step, at, i);
    }
    assert chunks + [] == chunks;
  }

  /** One turn of the loop: the window at `i` is emitted when it holds a sentence, and
      what is still to come starts at the next window. */
  lemma ChunkLoopStep(done: seq<Chunk>, next: seq<Chunk>, all: seq<Chunk>, sentences: seq<string>, pageOf: string -> Option<int>, chunkSize: int, step: nat, i: nat, nextStart: nat)
    requires step >= 1 && i < |sentences| && nextStart == i + step
    requires done + ChunksFrom(sentences, pageOf, chunkSize, step, i) == all
    requires next == if i < SliceStop(|sentences|, Min(i + chunkSize, |sentences|))
      then done + [ChunkAt(sentences, pageOf, i, chunkSize)] else done
    ensures next + ChunksFrom(sentences, pageOf, chunkSize, step, nextStart) == all
  {
    var rest := ChunksFrom(sentences, pageOf, chunkSize, step, i + step);
    if i < SliceStop(|sentences|, Min(i + chunkSize, |sentences|)) {
      var c := ChunkAt(sentences, pageOf, i, chunkSize);
      assert ChunksFrom(sentences, pageOf, chunkSize, step, i) == [c] + rest;
      AppendAssoc(done, [c], rest);
    } else {
      assert ChunksFrom(sentences, pageOf, chunkSize, step, i) == rest;
    }
  }

  /** `i + k * step`, the start of the `k`-th window counted from `i`, built one step at
      a time. */
  function WindowStart(i: nat, k: nat, step: nat): nat
    decreases k
  {
    if k == 0 then i else WindowStart(i + step, k - 1, step)
  }

  /** The `k`-th start is `i + k * step`. */
  lemma {:induction false} WindowStartIs(i: nat, k: nat, step: nat)
    decreases k
    ensures WindowStart(i, k, step) == i + k * step
  {
    if k > 0 {
      WindowStartIs(i + step, k - 1, step);
      MulSucc(k - 1, step);
    }
  }

  /** Chunk `k` from start `i` is the window at the `k`-th start. */
  lemma ChunksFromAt(sentences: seq<string>, pageOf: string -> Option<int>, chunkSize: int, step: nat, i: nat, k: nat)
    requires chunkSize >= 1 && step >= 1
    requires k < |ChunksFrom(sentences, pageOf, chunkSize, step, i)|
    ensures WindowStart(i, k, step) < |sentences|
    ensures ChunksFrom(sentences, pageOf, chunkSize, step, i)[k] == ChunkAt(sentences, pageOf, WindowStart(i, k, step), chunkSize)
  {
    ChunksFromShift(sentences, pageOf, chunkSize, step, i, k, WindowStart(i, k, step));
  }

  /** Chunk `k` from a start is the window at the `k`-th start `j` after it. */
  lemma {:induction false} ChunksFromShift(sentences: seq<string>, pageOf: string -> Option<int>, chunkSize: int, step: nat, i: nat, k: nat, j: nat)
    requires chunkSize >= 1 && step >= 1
    requires k < |ChunksFrom(sentences, pageOf, chunkSize, step, i)|
    requires j == WindowStart(i, k, step)
    decreases k
    ensures j < |sentences| && j < SliceStop(|sentences|, Min(j + chunkSize, |sentences|))
    ensures ChunksFrom(sentences, pageOf, chunkSize, step, i)[k] == ChunkAt(sentences, pageOf, j, chunkSize)
  {
    if k == 0 {
      ChunksFromFirst(sentences, pageOf, chunkSize, step, i);
    } else {
      ChunksFromLater(sentences, pageOf, chunkSize, step, i, k);
      assert j == WindowStart(i + step, k - 1, step);
      ChunksFromShift(sentences, pageOf, chunkSize, step, i + step, k - 1, j);
    }
  }

  /** The first chunk from a start is the window at that start. */
  lemma ChunksFromFirst(sentences: seq<string>, pageOf: string -> Option<int>, chunkSize: int, step: nat, i: nat)
    requires chunkSize >= 1 && step >= 1
    requires 0 < |ChunksFrom(sentences, pageOf, chunkSize, step, i)|
    ensures WindowStart(i, 0, step) == i < |sentences|
    ensures ChunksFrom(sentences, pageOf, chunkSize, step, i)[0] == ChunkAt(sentences, pageOf, i, chunkSize)
  {
    ChunksFromHead(sentences, pageOf, chunkSize, step, i);
  }

  /** Every later chunk from a start is a chunk from the next start. */
  lemma ChunksFromLater(sentences: seq<string>, pageOf: string -> Option<int>, chunkSize: int, step: nat, i: nat, k: nat)
    requires chunkSize >= 1 && step >= 1
    requires 0 < k < |ChunksFrom(sentences, pageOf, chunkSize, step, i)|
    ensures WindowStart(i, k, step) == WindowStart(i + step, k - 1, step)
    ensures k - 1 < |ChunksFrom(sentences, pageOf, chunkSize, step, i + step)|
    ensures ChunksFrom(sentences, pageOf, chunkSize, step, i)[k] == ChunksFrom(sentences, pageOf, chunkSize, step, i + step)[k - 1]
  {
    ChunksFromHead(sentences, pageOf, chunkSize, step, i);
  }

  /** Chunk k covers the contiguous sentence indices from `k * step` up to
      `min(k * step + chunk_size, n)`, at least one and at most `chunk_size` of them, its
      text is those sentences joined by single spaces, and its page is the lookup of it. */
  lemma ChunkWindow(sentences: seq<string>, pageOf: string -> Option<int>, chunkSize: int, overlap: int, k: nat)
    requires chunkSize > overlap && chunkSize >= 1
    requires k < |Chunks(sentences, pageOf, chunkSize, overlap)|
    ensures var c := Chunks(sentences, pageOf, chunkSize, overlap)[k];
      var start := k * (chunkSize - overlap);
      var end := Min(start + chunkSize, |sentences|);
      && 0 <= start < end <= |sentences|
      && c.sentenceIndices == Range(start, end)
      && 1 <= |c.sentenceIndices| <= chunkSize
      && c.text == Join(" ", sentences[start..end])
      && c.page == pageOf(c.text)
  {
    ChunksFromAt(sentences, pageOf, chunkSize, chunkSize - overlap, 0, k);
    WindowStartIs(0, k, chunkSize - overlap);
    ChunkAtWindow(sentences, pageOf, WindowStart(0, k, chunkSize - overlap), chunkSize, Chunks(sentences, pageOf, chunkSize, overlap)[k]);
  }

  /** With a positive chunk size the window at `i` is the plain slice up to
      `min(i + chunk_size, n)`. */
  lemma ChunkAtWindow(sentences: seq<string>, pageOf: string -> Option<int>, i: nat, chunkSize: int, c: Chunk)
    requires chunkSize >= 1 && i < |sentences|
    requires i < SliceStop(|sentences|, Min(i + chunkSize, |sentences|))
    requires c == ChunkAt(sentences, pageOf, i, chunkSize)
    ensures var end := Min(i + chunkSize, |sentences|);
      && i < end <= |sentences| && SliceStop(|sentences|, end) == end
      && c.sentenceIndices == Range(i, end)
      && 1 <= |c.sentenceIndices| <= chunkSize
      && c.text == Join(" ", sentences[i..end])
      && c.page == pageOf(c.text)
  {
  }

  lemma {:induction false} ChunksFromCover(sentences: seq<string>, pageOf: string -> Option<int>, chunkSize: int, step: nat, i: nat, j: nat)
    requires 1 <= step <= chunkSize
    requires i <= j < |sentences|
    decreases |sentences| - i
    ensures exists k :: (0 <= k < |ChunksFrom(sentences, pageOf, chunkSize, step, i)|
      && j in ChunksFrom(sentences, pageOf, chunkSize, step, i)[k].sentenceIndices)
  {
    var all := ChunksFrom(sentences, pageOf, chunkSize, step, i);
    var rest := ChunksFrom(sentences, pageOf, chunkSize, step, i + step);
    var c := ChunkAt(sentences, pageOf, i, chunkSize);
    assert all == [c] + rest;
    if j < i + step {
      assert c.sentenceIndices[j - i] == j;
      assert j in all[0].sentenceIndices;
    } else {
      ChunksFromCover(sentences, pageOf, chunkSize, step, i + step, j);
      var k :| 0 <= k < |rest| && j in rest[k].sentenceIndices;
      assert all[k + 1] == rest[k];
    }
  }

  /** With a non-negative overlap every sentence index lies in some chunk. */
  lemma ChunksCover(sentences: seq<string>, pageOf: string -> Option<int>, chunkSize: int, overlap: int, j: nat)
    requires 0 <= overlap < chunkSize
    requires j < |sentences|
    ensures exists k :: (0 <= k < |Chunks(sentences, pageOf, chunkSize, overlap)|
      && j in Chunks(sentences, pageOf, chunkSize, overlap)[k].sentenceIndices)
  {
    ChunksFromCover(sentences, pageOf, chunkSize, chunkSize - overlap, 0, j);
    var all := ChunksFrom(sentences, pageOf, chunkSize, chunkSize - overlap, 0);
    var k :| 0 <= k < |all| && j in all[k].sentenceIndices;
    assert all == Chunks(sentences, pageOf, chunkSize, overlap);
  }

  // ---------------------------------------------------------------- DocumentRAG

  type Embedding = seq<real>

  /** What the embedding back ends did with the chunk texts during `index`. */
  datatype IndexEmbedding =
    | NvidiaEmbedded(vectors: seq<Embedding>)
      /** the NVIDIA call raised and sentence-transformers encoded the texts */
    | FallbackEmbedded(vectors: seq<Embedding>)
      /** the NVIDIA call raised and the fallback model could not be imported */
    | FallbackUnavailable

  /** What became of the query in `retrieve` before the chunks were read out. */
  datatype QueryRanking =
    | NoQueryEmbedding
    | ZeroNormQuery
      /** chunk indices by descending cosine score */
    | Ranked(order: seq<nat>)

  class DocumentRag {
    var chunks: seq<Chunk>
    var embeddings: Option<seq<Embedding>>
    var useNvidia: bool

    constructor ()
      ensures chunks == [] && embeddings == None && useNvidia
    {
      chunks := [];
      embeddings := None;
      useNvidia := true;
    }

    /** `index`, with the default window of 4 sentences and overlap 1. `ok` is false when
        the fallback model is missing, where Python raises after `_chunks` and
        `_use_nvidia` were already set. */
    method Index(sentences: seq<string>, pages: seq<Page>, outcome: IndexEmbedding) returns (ok: bool)
      modifies this
      ensures chunks == Chunks(sentences, PageLookup(pages), 4, 1)
      ensures chunks == [] ==> ok && embeddings == None && useNvidia == old(useNvidia)
      ensures chunks != [] && outcome.NvidiaEmbedded? ==>
        ok && embeddings == Some(outcome.vectors) && useNvidia
      ensures chunks != [] && outcome.FallbackEmbedded? ==>
        ok && embeddings == Some(outcome.vectors) && !useNvidia
      ensures chunks != [] && outcome.FallbackUnavailable? ==>
        !ok && embeddings == old(embeddings) && !useNvidia
    {
      chunks := BuildChunks(sentences, pages, 4, 1);
      if chunks == [] {
        embeddings := None;
        return true;
      }
      match outcome
      case NvidiaEmbedded(vectors) =>
        embeddings := Some(vectors);
        useNvidia := true;
        ok := true;
      case FallbackEmbedded(vectors) =>
        useNvidia := false;
        embeddings := Some(vectors);
        ok := true;
      case FallbackUnavailable =>
        useNvidia := false;
        ok := false;
    }

    /** `retrieve`: nothing from an empty or unembedded index or for an unusable query;
        otherwise the text and page of the `top_k` best chunks, best first. */
    method Retrieve(topK: nat, ranking: QueryRanking) returns (r: seq<(string, Option<int>)>)
      requires ranking.Ranked? ==> forall k :: 0 <= k < |ranking.order| ==> ranking.order[k] < |chunks|
      ensures chunks == [] || embeddings == None ==> r == []
      ensures !ranking.Ranked? ==> r == []
      ensures |r| <= topK
      ensures chunks != [] && embeddings.Some? && ranking.Ranked? ==>
        |r| == Min(topK, |ranking.order|)
        && forall k :: 0 <= k < |r| ==>
          r[k] == (chunks[ranking.order[k]].text, chunks[ranking.order[k]].page)
    {
      if chunks == [] || embeddings == None {
        return [];
      }
      match ranking
      case NoQueryEmbedding =>
        r := [];
      case ZeroNormQuery =>
        r := [];
      case Ranked(order) =>
        var top := if |order| <= topK then order else order[..topK];
        var cs := chunks;
        r := seq(|top|, k requires 0 <= k < |top| => (cs[top[k]].text, cs[top[k]].page));
    }

    /** `get_embedding_backend`: "nvidia" exactly while the NVIDIA embeddings are in use. */
    function EmbeddingBackend(): (r: string)
      reads this
      ensures r == "nvidia" <==> useNvidia
      ensures !useNvidia ==> r == "sentence-transformers"
    {
      if useNvidia then "nvidia" else "sentence-transformers"
    }
  }

  /** A document with no sentences gives an index from which nothing is ever retrieved.
      The requirement on the ranking only keeps the supplied ranking within the (empty)
      chunk list, as `Retrieve` asks of every ranking; the source itself returns `[]`
      for an empty index before it ranks anything. */
  method EmptyDocumentRetrievesNothing(pages: seq<Page>, outcome: IndexEmbedding, topK: nat, ranking: QueryRanking)
    returns (r: seq<(string, Option<int>)>)
    requires ranking.Ranked? ==> ranking.order == []
    ensures r == []
  {
    var rag := new DocumentRag();
    var _ := rag.Index([], pages, outcome);
    r := rag.Retrieve(topK, ranking);
  }
}

=== FILE: text.dfy ===
/** The pieces of Python's `str` behaviour the backend relies on, over `seq<char>`:
    whitespace, `strip`, ASCII `lower`, slicing, substring search, `join`, `split`
    and `str(int)`. */
module Text {
  import opened Wrappers

  /** Python's `str.isspace`, which is also the `\s` class of `re` for str patterns. */
  predicate IsSpace(c: char) {
    if c <= ' ' then '\t' <= c <= '\r' || '\U{1c}' <= c
    else
      || c == '\U{85}' || c == '\U{a0}' || c == '\U{1680}' || ('\U{2000}' <= c <= '\U{200a}')
      || c == '\U{2028}' || c == '\U{2029}' || c == '\U{202f}' || c == '\U{205f}' || c == '\U{3000}'
  }

  predicate AllSpace(s: string) {
    forall i :: 0 <= i < |s| ==> IsSpace(s[i])
  }

  predicate IsAsciiUpper(c: char) {
    'A' <= c <= 'Z'
  }

  /** `str.lower` restricted to ASCII letters. */
  function LowerChar(c: char): char {
    if IsAsciiUpper(c) then (c as int + 32) as char else c
  }

  function Lower(s: string): string {
    seq(|s|, i requires 0 <= i < |s| => LowerChar(s[i]))
  }

  /** The end of the whitespace run of `s` that starts at `i`. */
  function SpaceRunEnd(s: string, i: nat): (r: nat)
    requires i <= |s|
    decreases |s| - i
    ensures i <= r <= |s|
    ensures forall k :: i <= k < r ==> IsSpace(s[k])
    ensures r == |s| || !IsSpace(s[r])
  {
    if i == |s| || !IsSpace(s[i]) then i else SpaceRunEnd(s, i + 1)
  }

  /** The start of the whitespace run of `s` that ends at `j`. */
  function SpaceRunStart(s: string, j: nat): (r: nat)
    requires j <= |s|
    ensures r <= j
    ensures forall k :: r <= k < j ==> IsSpace(s[k])
    ensures r == 0 || !IsSpace(s[r - 1])
  {
    if j == 0 || !IsSpace(s[j - 1]) then j else SpaceRunStart(s, j - 1)
  }

  /** `s.lstrip()`: what is left is a suffix of `s`, everything cut off was
      whitespace, and it does not start with whitespace. */
  function LStrip(s: string): (r: string)
    ensures |r| <= |s| && r == s[|s| - |r|..]
    ensures forall k :: 0 <= k < |s| - |r| ==> IsSpace(s[k])
    ensures r == [] || !IsSpace(r[0])
  {
    s[SpaceRunEnd(s, 0)..]
  }

  /** `s.rstrip()`: a prefix of `s`, only whitespace cut off, not ending in whitespace. */
  function RStrip(s: string): (r: string)
    ensures |r| <= |s| && r == s[..|r|]
    ensures forall k :: |r| <= k < |s| ==> IsSpace(s[k])
    ensures r == [] || !IsSpace(r[|r| - 1])
  {
    s[..SpaceRunStart(s, |s|)]
  }

  predicate IsStripped(s: string) {
    s == [] || (!IsSpace(s[0]) && !IsSpace(s[|s| - 1]))
  }

  /** `s.strip()`: neither starts nor ends with whitespace, and is empty exactly when
      `s` was all whitespace. */
  function Strip(s: string): (r: string)
    ensures |r| <= |s|
    ensures IsStripped(r)
    ensures r == [] <==> AllSpace(s)
  {
    var l := LStrip(s);
    var r := RStrip(l);
    if r != [] then
      assert r[0] == l[0];
      r
    else
      r
  }

  /** `lstrip` is determined by where the first non-space character is. */
  lemma LStripAt(s: string, c: nat)
    requires c <= |s|
    requires forall k :: 0 <= k < c ==> IsSpace(s[k])
    requires c == |s| || !IsSpace(s[c])
    ensures LStrip(s) == s[c..]
  {
  }

  /** `rstrip` is determined by where the last non-space character is. */
  lemma RStripAt(s: string, c: nat)
    requires c <= |s|
    requires forall k :: c <= k < |s| ==> IsSpace(s[k])
    requires c == 0 || !IsSpace(s[c - 1])
    ensures RStrip(s) == s[..c]
  {
  }

  /** Leading whitespace makes no difference to `lstrip`. */
  lemma LStripSkip(s: string, k: nat)
    requires k <= |s|
    requires forall i :: 0 <= i < k ==> IsSpace(s[i])
    ensures LStrip(s[k..]) == LStrip(s)
  {
    var l := LStrip(s[k..]);
    var c := k + (|s| - k - |l|);
    forall i | k <= i < c
      ensures IsSpace(s[i])
    {
      assert s[i] == s[k..][i - k];
    }
    if c < |s| {
      assert s[c] == l[0];
    }
    LStripAt(s, c);
  }

  /** Appending a non-space character commutes with `lstrip`. */
  lemma LStripAppend(s: string, ch: char)
    requires !IsSpace(ch)
    ensures LStrip(s + [ch]) == LStrip(s) + [ch]
  {
    var c := |s| - |LStrip(s)|;
    var t := s + [ch];
    if c < |s| {
      assert t[c] == LStrip(s)[0];
    }
    LStripAt(t, c);
    assert t[c..] == s[c..] + [ch];
  }

  /** `rstrip` stops at the last non-space character: what follows it is stripped on its
      own. */
  lemma RStripAfter(x: string, c: char, b: string)
    requires !IsSpace(c)
    ensures RStrip(x + [c] + b) == x + [c] + RStrip(b)
  {
    var s := x + [c] + b;
    var rb := RStrip(b);
    var n := |x| + 1 + |rb|;
    forall i | n <= i < |s|
      ensures IsSpace(s[i])
    {
      assert s[i] == b[i - |x| - 1];
    }
    if rb != [] {
      assert s[n - 1] == rb[|rb| - 1];
    }
    RStripAt(s, n);
    assert s[..n] == x + [c] + b[..|rb|];
  }

  /** A string that ends in a non-space character is its own `rstrip`. */
  lemma RStripKeeps(s: string)
    requires s != [] && !IsSpace(s[|s| - 1])
    ensures RStrip(s) == s
  {
    RStripAt(s, |s|);
  }

  /** Whitespace in front makes no difference to `strip`. */
  lemma StripLeading(s: string, k: nat)
    requires k <= |s|
    requires forall i :: 0 <= i < k ==> IsSpace(s[i])
    ensures Strip(s[k..]) == Strip(s)
  {
    LStripSkip(s, k);
  }

  /** Whitespace at the end makes no difference to `strip`. */
  lemma StripTrailing(s: string, k: nat)
    requires k <= |s|
    requires forall i :: k <= i < |s| ==> IsSpace(s[i])
    ensures Strip(s[..k]) == Strip(s)
  {
    var l := LStrip(s);
    var c := |s| - |l|;
    var u := s[..k];
    if c >= k {
      assert AllSpace(s);
      assert AllSpace(u);
    } else {
      assert u[c] == l[0];
      LStripAt(u, c);
      var v := u[c..];
      var r := RStrip(v);
      var d := |r|;
      assert forall i :: d <= i < |l| ==> IsSpace(l[i]) by {
        forall i | d <= i < |l|
          ensures IsSpace(l[i])
        {
          if c + i < k {
            assert l[i] == v[i];
          } else {
            assert l[i] == s[c + i];
          }
        }
      }
      if d > 0 {
        assert l[d - 1] == r[d - 1];
      }
      RStripAt(l, d);
      assert l[..d] == r;
    }
  }

  /** A string ending in a non-space character keeps that last character under `strip`. */
  lemma StripKeepsLast(s: string)
    requires s != [] && !IsSpace(s[|s| - 1])
    ensures Strip(s) != [] && Strip(s)[|Strip(s)| - 1] == s[|s| - 1]
  {
    var l := LStrip(s);
    assert l[|l| - 1] == s[|s| - 1];
    RStripKeeps(l);
  }

  /** Python's `s[:n]` for `n >= 0`. */
  function Prefix(s: string, n: nat): string {
    if n < |s| then s[..n] else s
  }

  /** Concatenation is associative; stated on its own so that callers need no
      element-wise reasoning. */
  lemma AppendAssoc<T>(a: seq<T>, b: seq<T>, c: seq<T>)
    ensures a + (b + c) == (a + b) + c
  {
  }

  /** Python's `xs[-n:]` for `n >= 1`. For `n == 0` this gives the empty list where
      Python's `xs[-0:]` gives the whole list; the callers only use 5, 10 and 20. */
  function LastN<T>(xs: seq<T>, n: nat): (r: seq<T>)
    ensures |r| == if |xs| <= n then |xs| else n
    ensures r == xs[|xs| - |r|..]
  {
    if |xs| <= n then xs else xs[|xs| - n..]
  }

  // ---------------------------------------------------------------- substrings

  predicate OccursAt(s: string, p: string, i: nat) {
    i + |p| <= |s| && s[i..i + |p|] == p
  }

  /** The first index at or after `i` where `p` occurs in `s`. */
  function IndexFrom(s: string, p: string, i: nat): (r: Option<nat>)
    decreases |s| - i
    ensures r.Some? ==> i <= r.value && OccursAt(s, p, r.value)
    ensures r.Some? ==> forall k :: i <= k < r.value ==> !OccursAt(s, p, k)
    ensures r.None? ==> forall k :: i <= k ==> !OccursAt(s, p, k)
  {
    if i + |p| > |s| then None
    else if OccursAt(s, p, i) then Some(i)
    else IndexFrom(s, p, i + 1)
  }

  /** `s.find(p)`, with `None` for -1. */
  function IndexOf(s: string, p: string): Option<nat> {
    IndexFrom(s, p, 0)
  }

  /** Python's `p in s` for strings. */
  predicate Contains(s: string, p: string) {
    IndexOf(s, p).Some?
  }

  lemma ContainsAt(s: string, p: string, i: nat)
    requires OccursAt(s, p, i)
    ensures Contains(s, p)
  {
  }

  /** A string that contains `p` contains every prefix of `p`. */
  lemma ContainsPrefix(s: string, p: string, n: nat)
    ensures Contains(s, p) ==> Contains(s, Prefix(p, n))
  {
    if Contains(s, p) {
      var i := IndexOf(s, p).value;
      var q := Prefix(p, n);
      assert s[i..i + |q|] == s[i..i + |p|][..|q|];
      ContainsAt(s, q, i);
    }
  }

  /** A string that lacks the first character of `p` does not contain `p`. */
  lemma MissingFirstChar(s: string, p: string)
    requires p != [] && p[0] !in s
    ensures !Contains(s, p)
  {
    forall k: nat | k + |p| <= |s|
      ensures !OccursAt(s, p, k)
    {
      assert s[k..k + |p|][0] == s[k];
    }
  }

  /** `s.split(sep)[0]`: the text before the first `sep`, or all of `s`. */
  function Before(s: string, sep: string): (r: string)
    ensures |r| <= |s| && r == s[..|r|]
    ensures IndexOf(s, sep).Some? ==> IndexOf(s, sep).value == |r|
    ensures IndexOf(s, sep).None? ==> r == s
  {
    match IndexOf(s, sep)
    case Some(i) => s[..i]
    case None => s
  }

  /** The text after the first `sep`; `s.split(sep)[1]` is `Before(After(s, sep), sep)`. */
  function After(s: string, sep: string): (r: string)
    requires Contains(s, sep)
    ensures Before(s, sep) + sep + r == s
  {
    var i := IndexOf(s, sep).value;
    assert s[..i] + sep + s[i + |sep|..] == s by {
      assert s[i..i + |sep|] == sep;
      assert s == s[..i] + s[i..i + |sep|] + s[i + |sep|..];
    }
    s[i + |sep|..]
  }

  /** The text after the separator starts right after its first occurrence. */
  lemma AfterIs(s: string, sep: string)
    requires Contains(s, sep)
    ensures IndexOf(s, sep).value + |sep| <= |s|
    ensures After(s, sep) == s[IndexOf(s, sep).value + |sep|..]
  {
    var r := After(s, sep);
    assert |Before(s, sep)| == IndexOf(s, sep).value;
    assert s[|Before(s, sep)| + |sep|..] == r;
  }

  /** An occurrence of a pattern without whitespace lies inside the part of `s` between
      whitespace-only ends. */
  lemma OccursInside(s: string, p: string, a: nat, b: nat, k: nat)
    requires a <= b <= |s|
    requires forall k :: 0 <= k < a ==> IsSpace(s[k])
    requires forall k :: b <= k < |s| ==> IsSpace(s[k])
    requires p != [] && forall k :: 0 <= k < |p| ==> !IsSpace(p[k])
    requires OccursAt(s, p, k)
    ensures a <= k && k + |p| <= b && OccursAt(s[a..b], p, k - a)
  {
    assert s[k] == s[k..k + |p|][0] == p[0];
    assert s[k + |p| - 1] == s[k..k + |p|][|p| - 1] == p[|p| - 1];
    var u, v := s[a..b][k - a..k - a + |p|], s[k..k + |p|];
    forall m | 0 <= m < |p|
      ensures u[m] == v[m]
    {
    }
    assert u == v;
  }

  /** An occurrence in a slice is an occurrence in the whole string. */
  lemma OccursOutward(s: string, p: string, a: nat, b: nat, j: nat)
    requires a <= b <= |s|
    requires OccursAt(s[a..b], p, j)
    ensures OccursAt(s, p, a + j)
  {
    var u, v := s[a + j..a + j + |p|], s[a..b][j..j + |p|];
    forall m | 0 <= m < |p|
      ensures u[m] == v[m]
    {
    }
    assert u == v;
  }

  /** Cutting whitespace off both ends of `s` does not move where a pattern without
      whitespace occurs first: every occurrence lies inside the kept part. */
  lemma IndexOfInside(s: string, p: string, a: nat, b: nat)
    requires a <= b <= |s|
    requires forall k :: 0 <= k < a ==> IsSpace(s[k])
    requires forall k :: b <= k < |s| ==> IsSpace(s[k])
    requires p != [] && forall k :: 0 <= k < |p| ==> !IsSpace(p[k])
    ensures IndexOf(s[a..b], p).Some? <==> IndexOf(s, p).Some?
    ensures IndexOf(s[a..b], p).Some? ==> IndexOf(s, p).value == a + IndexOf(s[a..b], p).value
  {
    var t := s[a..b];
    forall k: nat | OccursAt(s, p, k)
      ensures a <= k && k + |p| <= b && OccursAt(t, p, k - a)
    {
      OccursInside(s, p, a, b, k);
    }
    forall j: nat | OccursAt(t, p, j)
      ensures OccursAt(s, p, a + j)
    {
      OccursOutward(s, p, a, b, j);
    }
    match IndexOf(s, p)
    case Some(i) =>
      assert OccursAt(t, p, i - a);
      var j := IndexOf(t, p).value;
      assert OccursAt(s, p, a + j);
    case None =>
  }

  // ---------------------------------------------------------------- join / split

  /** `sep.join(parts)` */
  function Join(sep: string, parts: seq<string>): string
    decreases |parts|
  {
    if |parts| == 0 then []
    else if |parts| == 1 then parts[0]
    else parts[0] + sep + Join(sep, parts[1..])
  }

  /** Every part occurs in the join, at the offset the parts before it and their
      separators take up. */
  lemma {:induction false} JoinOccurs(sep: string, parts: seq<string>, k: nat) returns (i: nat)
    requires k < |parts|
    ensures OccursAt(Join(sep, parts), parts[k], i)
  {
    var j := Join(sep, parts);
    if |parts| == 1 {
      i := 0;
      assert j[..|parts[0]|] == parts[0];
    } else {
      var rest := Join(sep, parts[1..]);
      assert j == parts[0] + sep + rest;
      if k == 0 {
        i := 0;
        assert j[..|parts[0]|] == parts[0];
      } else {
        var i' := JoinOccurs(sep, parts[1..], k - 1);
        i := |parts[0]| + |sep| + i';
        assert j[i..i + |parts[k]|] == rest[i'..i' + |parts[k]|];
      }
    }
  }

  /** `parts[k] in sep.join(parts)` */
  lemma JoinContains(sep: string, parts: seq<string>, k: nat)
    requires k < |parts|
    ensures Contains(Join(sep, parts), parts[k])
  {
    var i := JoinOccurs(sep, parts, k);
    ContainsAt(Join(sep, parts), parts[k], i);
  }

  /** `s.split(c)` for a one-character separator. */
  function SplitOn(s: string, c: char): (r: seq<string>)
    decreases |s|
    ensures |r| >= 1
  {
    match IndexOf(s, [c])
    case Some(i) => [s[..i]] + SplitOn(s[i + 1..], c)
    case None => [s]
  }

  /** The first occurrence of `c` in `a + [c] + b` is right after `a` when `a` has no `c`. */
  lemma FirstSeparator(a: string, c: char, b: string)
    requires c !in a
    ensures IndexOf(a + [c] + b, [c]) == Some(|a|)
  {
    var s := a + [c] + b;
    assert OccursAt(s, [c], |a|) by {
      assert s[|a|..|a| + 1] == [c];
    }
    forall k | 0 <= k < |a|
      ensures !OccursAt(s, [c], k)
    {
      assert s[k..k + 1] == [a[k]];
    }
  }

  lemma NoSeparator(s: string, c: char)
    requires c !in s
    ensures IndexOf(s, [c]) == None
  {
    forall k: nat | k + 1 <= |s|
      ensures !OccursAt(s, [c], k)
    {
      assert s[k..k + 1] == [s[k]];
    }
  }

  /** Splitting a join at its one-character separator gives the parts back, when no
      part contains the separator. */
  lemma {:induction false} SplitJoin(parts: seq<string>, c: char)
    requires |parts| >= 1
    requires forall k :: 0 <= k < |parts| ==> c !in parts[k]
    ensures SplitOn(Join([c], parts), c) == parts
  {
    if |parts| == 1 {
      NoSeparator(parts[0], c);
    } else {
      var rest := Join([c], parts[1..]);
      assert Join([c], parts) == parts[0] + [c] + rest;
      FirstSeparator(parts[0], c, rest);
      var s := parts[0] + [c] + rest;
      assert s[..|parts[0]|] == parts[0];
      assert s[|parts[0]| + 1..] == rest;
      SplitJoin(parts[1..], c);
      assert parts == [parts[0]] + parts[1..];
    }
  }

  // ---------------------------------------------------------------- decimal numbers

  predicate IsDigit(c: char) {
    '0' <= c <= '9'
  }

  function DigitChar(d: nat): char
    requires d < 10
  {
    (48 + d) as char
  }

  function DigitValue(c: char): nat
    requires IsDigit(c)
  {
    c as int - 48
  }

  /** `str(n)` for a non-negative int: at least one digit and nothing else. */
  function NatToString(n: nat): (r: string)
    ensures |r| >= 1 && forall i :: 0 <= i < |r| ==> IsDigit(r[i])
  {
    if n < 10 then [DigitChar(n)] else NatToString(n / 10) + [DigitChar(n % 10)]
  }

  /** The value of a string of decimal digits, the reference reading of `NatToString`. */
  function ParseNat(s: string): nat
    requires forall i :: 0 <= i < |s| ==> IsDigit(s[i])
  {
    if s == [] then 0 else 10 * ParseNat(s[..|s| - 1]) + DigitValue(s[|s| - 1])
  }

  lemma {:induction false} ParseNatToString(n: nat)
    ensures ParseNat(NatToString(n)) == n
  {
    var s := NatToString(n);
    if n >= 10 {
      ParseNatToString(n / 10);
      assert s[..|s| - 1] == NatToString(n / 10);
    }
  }
}

=== FILE: wrappers.dfy ===
/** Option and Result, the two failure-carrying shapes the model uses for Python's
    `None` returns and for HTTP error responses. */
module Wrappers {

  datatype Option<+T> = None | Some(value: T)

  datatype Result<+T, +E> = Ok(value: T) | Err(error: E)
}
